=== FILE: README.md ===
# Elastic Serverless Forwarder core, modelled in Dafny

This project models four parts of the Elastic Serverless Forwarder, a Python
application that reads logs from AWS sources and ships them to Elasticsearch.
The model is written as pure functions over immutable values, and the
properties the code promises are proved about those functions.

- **Line and record framing** (`storage/decorator.py`), in modules `Framing`,
  `LineRoundTrip` and `JsonCollector`:
  - `by_lines` cuts a stream of byte chunks into lines. Each line carries its
    newline kind and contiguous `[start, end)` byte offsets.
  - `multi_line` re-frames records through a pluggable processor.
  - `json_collector` buffers lines until a JSON object parses. It gives up
    after 1000 failed lines (the circuit breaker) and falls back to line
    framing.
  - The plain branch of `inflate` passes data through.
  - The JSON parser, the multiline processor and the event-list expander are
    function parameters.
- **Configuration** (`share/config.py`), in module `Configuration`:
  - outputs, including the Elasticsearch output's validating setters and its
    endpoint and credential rules;
  - inputs, with their type, id and tag setters and their output registry;
  - the `Config` registry of inputs;
  - `parse_config` over an already-loaded YAML tree.
- **The Elasticsearch shipper** (`shippers/es.py`), in module `EsShipper`:
  - the endpoint and authentication precedence;
  - event enrichment;
  - deterministic document ids, formatted by module `Decimal`;
  - the bulk buffer and its flushing;
  - failure replay;
  - dataset discovery from an S3 object key.

  The Elasticsearch client, the bulk helper and the SHA-256 digest are
  parameters.
- **AWS handler helpers** (`handlers/aws/utils.py`), in module `AwsUtils`:
  - S3 URI splitting;
  - event enrichment;
  - the bucket name of an ARN;
  - trigger-type classification.

Python values are modelled as follows:

- Dictionaries, lists and strings read from YAML or events are one tree type, `Values.Value`.
- `in` and `[]` on that tree raise the exceptions Python raises for the wrong kind of operand.
- Exceptions are the `Values.Error` cases, returned in a `Result`.

The model follows the Python code.

## Model

| member | source | states |
|---|---|---|
| Framing.SplitLines | storage/decorator.py:31-34 | The buffer yields no line exactly when it is empty, and no yielded line contains a line separator. |
| Framing.EmitLines | storage/decorator.py:49-55 | Complete lines are yielded in order with the detected newline. The first starts at the running offset, each later one starts where the previous ended, and each spans its bytes plus its newline. Data and newlines concatenate to the lines each followed by the newline. |
| Framing.FeedChunk | storage/decorator.py:27-55 | One chunk yields records of the by-lines shape from the current ending offset. The new ending offset is the last yielded end. Every yielded newline is the one detected on the buffer. The kept unfinished line holds no separator except possibly one final newline. |
| Framing.PendingSplit | storage/decorator.py:57-65 | Stripping the trailing newline off the unfinished line leaves a line without separators, and that line followed by the newline is the unfinished line. |
| Framing.FinishLines | storage/decorator.py:57-72 | After the last chunk, a non-empty unfinished line is yielded once. It starts at the ending offset, its newline is the one it ends with, and its data and newline are exactly the buffered bytes. Nothing is yielded for an empty buffer. |
| Framing.ByLines | storage/decorator.py:14-74 | The first record starts at `range_start` and every later one at the previous end. Each record's span is its data length plus its newline length. Every newline is `\r\n`, `\n` or empty, and no data holds a line separator. |
| Framing.ByLinesFrom | storage/decorator.py:22-72 | Folding chunks into lines from any separator-free pending state yields records that are contiguous from the state's ending offset. |
| Framing.LineRecordsAppend | storage/decorator.py:51-52 | The records of successive chunks join into one contiguous run, because each chunk continues from where the previous one ended. |
| Framing.EndOfIsFlattenLength | storage/decorator.py:51-52 | For contiguous records whose spans match their contents, the last end offset is the start plus the number of bytes the records stand for. |
| LineRoundTrip.SplitUniform | storage/decorator.py:31 | On text whose line breaks are all `\n` or all `\r\n`, the lines are exactly the text's lines. Rejoined with the newline, plus a final newline exactly when the text ends with one, they give the text back. |
| LineRoundTrip.DetectUniform | storage/decorator.py:36-41 | On uniform text the detected newline is the text's own newline, or empty when the text has no separator at all. |
| LineRoundTrip.FeedBare | storage/decorator.py:33-47 | A chunk without separators yields nothing and is kept whole as the unfinished line. |
| LineRoundTrip.FeedSplit | storage/decorator.py:43-55 | For a uniform chunk with a separator, the yielded lines and newlines followed by the kept line give the chunk back. The kept line ends with the newline exactly when the chunk does. |
| LineRoundTrip.FeedUniform | storage/decorator.py:27-55 | The first uniform chunk: the yielded data and newlines followed by the unfinished line give the chunk back, and every yielded newline is the chunk's newline. |
| LineRoundTrip.TrailingOfTerminated | storage/decorator.py:58-63 | A line followed by `\n` or `\r\n` is reported with that newline. |
| LineRoundTrip.OneChunk | storage/decorator.py:27-72 | `by_lines` over one chunk is what the chunk yields followed by what the final unfinished line yields. |
| LineRoundTrip.ByLinesSingleChunk | storage/decorator.py:22-72 | For a single uniform chunk, the yielded data and newlines concatenate back to the chunk, and the last end offset is `range_start` plus the chunk length. Every line but the last carries the newline, and the last carries it exactly when the chunk ends with it. |
| Framing.Feeds | storage/decorator.py:97-100 | The multiline processor is fed each inner record's data and newline, in order. |
| Framing.Accumulate | storage/decorator.py:104-109 | Collected items are yielded at contiguous offsets from the start, each spanning the length the processor reported, with no expanded-event number. |
| Framing.MultiLine | storage/decorator.py:77-111 | Without a processor, records pass through unchanged. With one, the processor's items are yielded with their data and newline at offsets accumulated contiguously from `range_start`. |
| Framing.InflatePlain | storage/decorator.py:352-354 | Plain content passes every data item on, with zero offsets, no newline and no expanded-event number. |
| JsonCollector.HandleOffset | storage/decorator.py:135-137 | The next item starts where the previous ended and spans the given skew. Nothing else in the state changes. |
| JsonCollector.Trim | storage/decorator.py:167 | The double strip removes exactly the surrounding `\r` and `\n` bytes. It leaves nothing exactly when the buffer is all newline bytes. |
| JsonCollector.CollectParsed | storage/decorator.py:146-173 | On a successful parse, the buffer is yielded with its surrounding newlines trimmed, together with the parsed object. It spans exactly the buffered bytes. The buffer is emptied, the JSON flag is set and the breaker gives back one per extra line. |
| JsonCollector.CollectBlank | storage/decorator.py:177-190 | Once JSON has been seen, a buffer of only newline bytes is yielded as empty data spanning just the newline, and the buffer is emptied. Nothing else changes. |
| JsonCollector.CollectBuffered | storage/decorator.py:191-198 | Any other failed parse keeps the buffer and yields nothing. It adds one to the breaker, and the circuit breaks once the breaker exceeds 1000. |
| JsonCollector.Collect | storage/decorator.py:139-197 | Has no contract of its own. Its three outcomes are stated by CollectParsed, CollectBlank and CollectBuffered. |
| JsonCollector.FallbackFrom | storage/decorator.py:210-226 | Each fallback line moves the offsets on by its length and newline, empties the buffer and clears the object start. The flags and the breaker are kept. |
| JsonCollector.FallbackReframes | storage/decorator.py:210-226 | Re-yielding `by_lines` records at the offsets the state moves through gives the same records, and the state ends where they end. |
| JsonCollector.LineRecordsTail | storage/decorator.py:49-55 | The lines after the first continue from the first line's end and finish where the whole run does. |
| JsonCollector.Fallback | storage/decorator.py:200-226 | The fallback yields exactly `by_lines` of the buffer from the current ending offset, and the ending offset moves to the last end. If anything was yielded, the buffer is empty and the object start is cleared. |
| JsonCollector.Expand | storage/decorator.py:289-306 | Each expanded event is yielded with its own offsets and event number and the line's newline. |
| JsonCollector.Emit | storage/decorator.py:284-308 | Without an expander, the collected piece is yielded at the state's span. With one, the expander's events are yielded instead. |
| JsonCollector.Forward | storage/decorator.py:236-240 | Forwarded records keep data, offsets and newline, and lose the expanded-event number. |
| JsonCollector.CollectorForwards | storage/decorator.py:233-240 | When JSON collection is disabled or a multiline processor is set, every inner record is forwarded with its data, offsets and newline, and with no expanded-event number. |
| JsonCollector.Datas | storage/decorator.py:261 | The parts joined for single-object content are the records' data, in order. |
| JsonCollector.CollectorSingle | storage/decorator.py:249-262 | Single-object content without an expander fails exactly when there is no inner record. Otherwise one record is yielded: the records' data joined by the first record's newline, from the first start to the last end. |
| JsonCollector.ByLinesOfNothing | storage/decorator.py:207-215 | Framing an empty buffer yields nothing. |
| JsonCollector.NothingLeftAtStart | storage/decorator.py:322-324 | With nothing ever buffered, the final fallback yields nothing. |
| JsonCollector.StepForwards | storage/decorator.py:268-280 | Before an object start, a line that does not start with `{` is forwarded with its own offsets, and the state's offsets move past it. |
| JsonCollector.RunForwards | storage/decorator.py:264-280 | A run of lines none of which starts an object is forwarded unchanged, and only the state's offsets move. |
| JsonCollector.CollectorPlainText | storage/decorator.py:241-324 | With JSON collection on but no line starting with `{`, the collector yields the inner records unchanged. |
| JsonCollector.Step | storage/decorator.py:264-316 | Has no contract of its own. It is specified by StepForwards and StepMonotone. |
| JsonCollector.Run | storage/decorator.py:264-316 | Has no contract of its own. It is specified by RunForwards and RunMonotone. |
| JsonCollector.Collector | storage/decorator.py:228-324 | Has no contract of its own. It is specified by CollectorForwards, CollectorSingle and CollectorPlainText. |
| JsonCollector.Leftover | storage/decorator.py:322-324 | Has no contract of its own. It is specified by NothingLeftAtStart and, through Fallback, by FallbackReframes. |
| JsonCollector.Whole | storage/decorator.py:249-262 | Has no contract of its own. It is specified by CollectorSingle. |
| JsonCollector.StepMonotone | storage/decorator.py:264-316 | A step never clears the JSON flag and never mends a broken circuit. |
| JsonCollector.RunMonotone | storage/decorator.py:264-316 | Over the whole loop, once the content is known to be JSON or the circuit has broken, it stays so. |
| Configuration.NewOutput | share/config.py:13-37 | An output is created exactly for a string type in the closed list. A non-string type raises its own ValueError. |
| Configuration.StrParamOk | share/config.py:88-151 | A string setter accepts exactly an absent or string argument, and yields the given string. |
| Configuration.ElasticsearchAccepts | share/config.py:40-81 | The Elasticsearch output is built exactly when the arguments are well typed and the rules hold: an endpoint, some credentials, and a password whenever the username is the credential in use. |
| Configuration.NewElasticsearch | share/config.py:40-81 | Has no contract of its own. It is specified by ElasticsearchAccepts, ElasticsearchSettings, ElasticsearchRejects and ApiKeyWins. |
| Configuration.ElasticsearchSettings | share/config.py:50-79 | When both url and cloud id are given, the url is kept and the cloud id cleared. When both api key and username are given, the api key is kept and username and password cleared. The batch limits default to 500 actions and 10 MiB. |
| Configuration.ElasticsearchRejects | share/config.py:65-81 | A rejected well-typed configuration raises the endpoint error, else the credentials error, else the password error, as the constructor checks them. |
| Configuration.ApiKeyWins | share/config.py:72-81 | With an api key and an endpoint, the output is accepted and the username is cleared, so the password rule cannot fire. |
| Configuration.NewInput | share/config.py:182-222 | An input is created exactly for a string type among the four listed and a string id. It starts with no tags, outputs or filter. |
| Configuration.SetTags | share/config.py:232-243 | The tags setter accepts exactly a list of strings and keeps them in order. A non-list raises "Tags must be of type list". Nothing else changes. |
| Values.StrsOf | share/config.py:241-243 | Filtering a list down to its strings keeps every element exactly when all are strings. |
| Configuration.TypesOf | share/config.py:264-270 | The output types are listed in insertion order. |
| Configuration.GetOutputByType | share/config.py:256-262 | The getter gives None exactly for a type never added. Otherwise it gives an output of that type. |
| Configuration.Without | share/config.py:272-278 | Removing a type leaves exactly the other types, and only outputs that were there. |
| Configuration.DeleteOutputByType | share/config.py:272-278 | Deleting a missing type raises KeyError. Otherwise only the outputs change. |
| Configuration.Remap | share/config.py:291-296 | `es_index_or_datastream_name` is always removed and copied into `datastream` only when that is absent. Every other argument is unchanged. |
| Configuration.AddOutput | share/config.py:280-302 | A duplicate type raises "Duplicated Output". On success exactly one output of the requested type is appended. |
| Configuration.AddOutputElasticsearch | share/config.py:291-302 | Only the Elasticsearch type can be added. The added output is built from the remapped arguments and carries their tags. |
| Configuration.AddOutputThenGet | share/config.py:256-302 | Adding keeps one output per type, and the new output is found by its type. |
| Configuration.DeleteThenGet | share/config.py:256-278 | After deleting a present type it is no longer found, and every other type returns the same output as before. |
| Configuration.FindWithout | share/config.py:272-278 | Removing the outputs of one type leaves the lookup of every other type returning the same output. |
| Configuration.GetInputById | share/config.py:313-322 | The getter gives None exactly for an unknown id, otherwise the stored input. |
| Configuration.AddInput | share/config.py:324-333 | A duplicate id raises "duplicated input". Otherwise the input is stored under its id, every other id is unaffected and the count grows by one. |
| Configuration.Rules | share/config.py:373-389 | An include or exclude entry that is present but not a list raises. Otherwise its items are taken, or none when it is absent. |
| Configuration.AtMostOneOutput | share/config.py:13 | With a single output type, a well-formed input has at most one output. |
| Configuration.ParseOutputsWellFormed | share/config.py:399-408 | Parsing outputs keeps the input well formed: one output per type, each an Elasticsearch output carrying the input's tags. It changes nothing but the outputs. |
| Configuration.ParseInputWellFormed | share/config.py:357-408 | A parsed input has a listed type, distinct output types, and the input's tags on every output. |
| Configuration.ParseInputsWellFormed | share/config.py:357-410 | Parsing the input list yields one stored input per entry, each under its own id and well formed. |
| Configuration.ParseConfigWellFormed | share/config.py:336-412 | A parsed configuration came from a mapping with an `inputs` list. It holds one well-formed input per entry, so the ids were distinct. |
| Configuration.ParseOutputs | share/config.py:399-408 | Has no contract of its own. It is specified by ParseOutputsWellFormed and ParseOutputsRejects. |
| Configuration.ParseInput | share/config.py:357-408 | Has no contract of its own. It is specified by ParseInputWellFormed and ParseInputRejects. |
| Configuration.ParseInputs | share/config.py:357-410 | Has no contract of its own. It is specified by ParseInputsWellFormed. |
| Configuration.ParseConfig | share/config.py:336-412 | Has no contract of its own. It is specified by ParseConfigWellFormed and ParseConfigRejects. |
| Configuration.ParseConfigRejects | share/config.py:350-359 | A root that is not a mapping fails the assertion. Missing or non-list inputs raise "No inputs provided". The first failing input fails the whole configuration. |
| Configuration.ParseInputRejects | share/config.py:358-397 | A missing or non-string input type or id raises its message. An unknown type or non-list tags fail. A parsed input had a list of outputs. |
| Configuration.ParseOutputsRejects | share/config.py:399-408 | A missing or non-string output type and non-mapping args raise their messages. Args holding `output_type` or `self` raise TypeError when `add_output` binds them. Otherwise the output is added with the input's tags in its args. |
| EsShipper.MakeBulkKwargs | shippers/es.py:42-51 | The bulk arguments are fixed, except that `chunk_size` is present exactly when the batch size is positive. |
| EsShipper.NewShipper | shippers/es.py:24-76 | The shipper is built exactly when there is an endpoint and credentials. The url is preferred to the cloud id and the username to the api key. Each missing setting raises its message. The buffer starts empty. |
| EsShipper.SetReplayHandler | shippers/es.py:141-142 | Setting the handler changes nothing else. |
| Decimal.Format | shippers/es.py:104 | The zero-padded rendering is at least the width, all digits for a non-negative number, and a minus sign then digits otherwise. |
| Decimal.DigitsBound | shippers/es.py:104 | A number below ten to the power w has at most w digits. |
| Decimal.ParseFormat | shippers/es.py:104 | Parsing the zero-padded rendering gives the number back, whatever the width. |
| EsShipper.ObjectIdRoundTrip | shippers/es.py:101-104 | The id is the digest's first ten characters, a dash, and the offset, which parses back. An offset below 10^12 gives exactly 23 characters. |
| EsShipper.S3ObjectId | shippers/es.py:90-104 | An id is produced only when the offset, the bucket arn and the object key are all present. It is the digest of arn followed by key, then the offset. A string or float offset raises ValueError, and a None, list or dict offset raises TypeError. |
| EsShipper.EnrichTags | shippers/es.py:120 | The tags are `preserve_original_event`, `forwarded`, the dataset with dots replaced, then the configured tags. |
| EsShipper.Enrich | shippers/es.py:106-120 | Enrichment succeeds exactly on a mapping with `fields.message`. It sets data_stream to logs with the shipper's dataset and namespace, sets the event's original message, and sets the tags. It leaves every other key alone. |
| EsShipper.EnrichIdempotent | shippers/es.py:106-120 | Enriching an enriched event changes nothing. |
| EsShipper.Prepare | shippers/es.py:144-159 | An unset or empty index raises "Elasticsearch index cannot be empty". A prepared action has `_op_type` "create", an `_index` and an `_id`. |
| EsShipper.Stamp | shippers/es.py:152-155 | `_op_type` becomes "create", `_index` is set only when absent, and every other key is kept. |
| EsShipper.AddId | shippers/es.py:157-159 | `_id` is filled from the S3 object id only when absent. Every other key is kept, and an existing `_id` never fails. |
| EsShipper.EnrichKeeps | shippers/es.py:112-120 | Enrichment keeps every key other than the three it sets. |
| EsShipper.PrepareFields | shippers/es.py:152-159 | An event's own `_index` and `_id` are kept. A missing `_index` becomes the shipper's index. |
| EsShipper.SendShape | shippers/es.py:144-170 | `send` records the dataset in the replay arguments. It appends the prepared action while the buffer stays below the batch size, Otherwise it passes the buffer with the new action to the bulk helper, empties the buffer and returns the replays `_handle_outcome` makes of the bulk helper's errors. Nothing else changes. |
| EsShipper.Send | shippers/es.py:144-170 | A successful send grows the buffer by at most one action, and whenever it returns replays the buffer has been emptied. SendShape, SendBelowBatch and SendKeepsActions state the rest. |
| EsShipper.SendBelowBatch | shippers/es.py:161-168 | With a positive batch size, a buffer below it stays below it after `send`. |
| EsShipper.SendKeepsActions | shippers/es.py:152-161 | A buffer of prepared actions stays one after `send`: every item has `_op_type` "create", an `_index` and an `_id`. |
| EsShipper.Flush | shippers/es.py:172-179 | A successful flush always leaves the buffer empty, and nothing is sent when it is already empty. A non-empty flush hands the whole buffer to the bulk helper: it succeeds exactly when `_handle_outcome` of the helper's errors does, returns its replays and otherwise raises its error. |
| EsShipper.WithId | shippers/es.py:128 | The matching actions are exactly the buffered ones whose `_id` equals the id under Python's `==`, so `True`, `1` and `1.0` match each other. The lookup fails when some action has no `_id`. |
| EsShipper.WithIdNumeric | shippers/es.py:128 | An action with `_id` `True` matches the reported id `1`, and one with `_id` `"1"` does not. |
| EsShipper.WithIdCount | shippers/es.py:128 | On prepared actions, the number matching an id is the count of actions carrying it. |
| EsShipper.HandleOutcome | shippers/es.py:122-139 | When handled, the replay handler is called once per error if it is set, and never otherwise. |
| EsShipper.HandleOutcomeOk | shippers/es.py:127-131 | On prepared actions, the outcome is handled exactly when every error names exactly one buffered action. |
| EsShipper.HandleOutcomeReplays | shippers/es.py:127-131 | Each replay, in error order, carries the Elasticsearch output type, the replay arguments and the buffered action whose `_id` equals the error's id under Python's `==`. |
| EsShipper.HandleOutcomeHead | shippers/es.py:127-131 | With a handler, a handled outcome starts with the replay of the first error's only matching action. |
| EsShipper.FirstMatchIsFirst | shippers/es.py:195-218 | The first matching rule's dataset is chosen. "generic" is chosen exactly when no rule matches. |
| EsShipper.ClassifyIsFirstMatch | shippers/es.py:191-218 | The code's chain of substring tests picks the first match over the priority-ordered rule table. An empty key gives "generic". |
| EsShipper.Classify | shippers/es.py:191-218 | Has no contract of its own. It is specified by ClassifyIsFirstMatch against the rule table and FirstMatchIsFirst. |
| EsShipper.DiscoverDataset | shippers/es.py:181-222 | The dataset is classified only while it is empty, and the index is always `logs-{dataset}-{namespace}`. Nothing else changes. |
| AwsUtils.SplitOnce | handlers/aws/utils.py:10-12 | The split yields two parts exactly when there is a `/`. The parts rejoin to the input, and the first holds no `/`. |
| AwsUtils.S3UriToBucketAndKey | handlers/aws/utils.py:4-14 | A URI not starting with `s3://` raises. Otherwise the character-set strip of `s`, `3`, `:` and `/` is split at its first `/`. The result exists exactly when the stripped text holds a `/`, and it raises with the stripped text otherwise. |
| AwsUtils.S3UriStripsTail | handlers/aws/utils.py:8-14 | For a bucket and key with plain outer characters, any tail of stripped characters after the key is lost. |
| AwsUtils.S3UriTruncatesKey | handlers/aws/utils.py:8 | `s3://logs/access3` yields the key `acce`, not `access3`. |
| AwsUtils.S3UriToBucketAndKeyByPrefix | handlers/aws/utils.py:4-14 | The intended split removes the `s3://` prefix and succeeds exactly when a `/` follows. The scheme, bucket, `/` and key rejoin to the URI. |
| AwsUtils.SplitOnceOf | handlers/aws/utils.py:10-14 | A bucket without `/`, then `/`, then a key, splits back into that bucket and key. |
| AwsUtils.S3UriRoundTrip | handlers/aws/utils.py:4-14 | The intended split of `s3://` + bucket + `/` + key gives the bucket and key back. |
| AwsUtils.S3UriAgreesOnPlainNames | handlers/aws/utils.py:8 | The code and the intended split agree when the bucket does not start, and the key does not end, with a stripped character. |
| AwsUtils.EnrichEvent | handlers/aws/utils.py:17-26 | Enrichment succeeds exactly on a mapping with `fields.message`. It sets data_stream to the given type, dataset and namespace, sets the original message, and sets exactly three tags, the last the dataset with dots replaced by dashes. Other keys are left alone. |
| AwsUtils.BucketNameFromArn | handlers/aws/utils.py:29-30 | The name is the suffix after the last `:`, or the whole ARN when it has none. |
| AwsUtils.LookupTrigger | handlers/aws/utils.py:41-44 | A source is accepted exactly when it is a string in the trigger table, and it maps to its trigger. |
| AwsUtils.TriggerGuardNeverFires | handlers/aws/utils.py:34 | As written, a mapping without `Records` raises KeyError and an empty `Records` list raises IndexError. The code differs from the intended guard only on those events. |
| AwsUtils.GuardedRejectsMissingRecords | handlers/aws/utils.py:34-35 | With the intended guard, missing or empty `Records` raises "Not supported trigger". |
| AwsUtils.GetTriggerType | handlers/aws/utils.py:33-54 | Whenever the function as written returns a trigger type, the intended version returns the same one. |
| AwsUtils.GetTriggerTypeGuarded | handlers/aws/utils.py:33-54 | A trigger type is returned only for a mapping whose `Records` is a non-empty list, and it is one of the table's types or `self_sqs`. |
| AwsUtils.TriggerOfSqsRecord | handlers/aws/utils.py:37-54 | The first record without an `aws:sqs` source is not supported. An SQS record is `sqs` without message attributes, and `self_sqs` exactly when its attributes mention `originalEventSource`. |

## Left out

- The gzip branch of `inflate`: library decompression and seeking.
- UTF-8 decoding in `by_lines`. Lines are bytes, and the separators are the single-byte ones `str.splitlines` knows plus `\r\n`. The multi-byte separators (`\x85`, U+2028, U+2029) are not modelled.
- `by_lines`: the round-trip is proved for one chunk of uniform `\n` or `\r\n` text only. A `\r\n` split across two chunks, and text mixing newline kinds, are modelled as the code behaves but nothing is proved about them.
- JsonCollector.StartsObject: the object-start test of `json_collector` strips only the ASCII whitespace bytes before looking for `{`. Python decodes the line as UTF-8 first, so a line whose `{` follows Unicode whitespace such as U+00A0 or U+3000 starts an object there and not in the model, and a line that is not valid UTF-8 raises UnicodeDecodeError there where the model answers false.
- The JSON parser, the multiline processor's `collect` and the event-list expander: these are function parameters with no assumed properties.
- Logging calls everywhere.
- The Elasticsearch client, the bulk helper and the client's retry settings: network I/O. The bulk helper is a parameter returning a success count and a list of errors, so the `isinstance(errors[1], list)` assertion always holds.
- The SHA-256 digest in `_s3_object_id`: a parameter.
- `discover_dataset`: `json.loads` and the lookup of the object key in the SQS body are left out, and the extracted key is a parameter (`""` when there is none).
- YAML loading and the text expanders of `parse_config`. The model starts from the loaded tree.
- The integration scope discoverer.
- `IncludeExcludeFilter` and `IncludeExcludeRule`: their source is not part of this model. The raw include and exclude values are kept, and their `str()` conversion is not modelled.
- Partial effects before an exception. These are skipped:
  - the tag list the setter stores before raising;
  - the replay argument `send` records before enrichment fails;
  - replay calls made before `_handle_outcome`'s assertion fails;
  - event fields set before a later lookup raises.

  A failing call returns only the error.
- Dictionary keys are strings. YAML keys of other types are not modelled.
- EsShipper.WithId: Python's `==` is modelled for numbers only. A list or mapping `_id` is compared structurally, so `[1]` and `[True]` differ here though they are equal in Python.
- Exception messages that interpolate a Python `repr`, such as the tag list in "Each tag must be of type str", are shortened to their fixed text.
- EsShipper.S3ObjectId: a bucket arn or object key that is not a string gives TypeError, where Python's f-string would format it.
- Configuration.AddOutput: an output type other than "elasticsearch" can never be added, because the type setter rejects it. The model keeps that path, but no property is stated about base `Output` objects beyond `NewOutput`.

## Findings

| source | as written | input that shows it | evidently intended | confidence | as-written member | corrected member |
|---|---|---|---|---|---|---|
| handlers/aws/utils.py:8 | `s3_uri.strip("s3://")` strips any of the characters `s`, `3`, `:` and `/` from both ends | `s3://logs/access3` yields bucket `logs` and key `acce` | remove the `s3://` prefix, giving key `access3` | high; not executed | AwsUtils.S3UriTruncatesKey | AwsUtils.S3UriRoundTrip |
| handlers/aws/utils.py:34 | `"Records" not in event and len(event["Records"]) < 1` joins the two tests with `and`, so the guard never raises | `{}` raises KeyError; `{"Records": []}` raises IndexError | `or`: missing or empty `Records` raises "Not supported trigger" | high; not executed | AwsUtils.TriggerGuardNeverFires | AwsUtils.GuardedRejectsMissingRecords |

=== FILE: aws_utils.dfy ===
/** Helpers of the AWS Lambda handler (handlers/aws/utils.py): splitting an
    S3 URI, enriching an event, the bucket name of an ARN, and classifying the
    trigger of a Lambda event. */
module AwsUtils {
  import opened Wrappers
  import opened Seqs
  import opened Values

  const S3Scheme: string := "s3://"

  /** The characters `strip("s3://")` removes: it is a set, not a prefix. */
  const S3Chars: set<char> := {'s', '3', ':', '/'}

  function InvalidUri(uri: string): Error {
    ValueError("Invalid s3 uri provided: " + uri)
  }

  /** `s.split("/", 1)` when it yields two parts. */
  function SplitOnce(s: string): (r: Option<(string, string)>)
    ensures r.None? <==> '/' !in s
    ensures r.Some? ==> r.value.0 + "/" + r.value.1 == s && '/' !in r.value.0
  {
    match IndexOf(s, '/')
    case None => None
    case Some(i) =>
      assert s[..i] + "/" + s[i + 1..] == s by {
        assert s == s[..i] + [s[i]] + s[i + 1..];
      }
      Some((s[..i], s[i + 1..]))
  }

  /** `_from_s3_uri_to_bucket_name_and_object_key` as written: after checking
      the scheme it strips every leading and trailing `s`, `3`, `:` and `/`. */
  function S3UriToBucketAndKey(uri: string): (r: Result<(string, string), Error>)
    ensures !StartsWith(uri, S3Scheme) ==> r == Err(InvalidUri(uri))
    ensures StartsWith(uri, S3Scheme) && '/' !in Strip(uri, S3Chars) ==> r == Err(InvalidUri(Strip(uri, S3Chars)))
    ensures r.Ok? <==> StartsWith(uri, S3Scheme) && '/' in Strip(uri, S3Chars)
    ensures r.Ok? ==> r.value.0 + "/" + r.value.1 == Strip(uri, S3Chars) && '/' !in r.value.0
  {
    if !StartsWith(uri, S3Scheme) then Err(InvalidUri(uri))
    else
      var stripped := Strip(uri, S3Chars);
      match SplitOnce(stripped)
      case None => Err(InvalidUri(stripped))
      case Some(parts) => Ok(parts)
  }

  /** The evidently intended split: remove the `s3://` prefix, then split at
      the first `/`. */
  function S3UriToBucketAndKeyByPrefix(uri: string): (r: Result<(string, string), Error>)
    ensures r.Ok? <==> StartsWith(uri, S3Scheme) && '/' in uri[|S3Scheme|..]
    ensures r.Ok? ==> S3Scheme + r.value.0 + "/" + r.value.1 == uri && '/' !in r.value.0
  {
    if !StartsWith(uri, S3Scheme) then Err(InvalidUri(uri))
    else
      var rest := uri[|S3Scheme|..];
      match SplitOnce(rest)
      case None => Err(InvalidUri(rest))
      case Some(parts) =>
        assert uri == S3Scheme + rest;
        Ok(parts)
  }

  lemma {:induction false} SplitOnceOf(bucket: string, key: string)
    requires '/' !in bucket
    ensures SplitOnce(bucket + "/" + key) == Some((bucket, key))
  {
    var s := bucket + "/" + key;
    var p := SplitOnce(s).value;
    assert forall i :: 0 <= i < |p.0| ==> s[i] == p.0[i];
    assert forall i :: 0 <= i < |bucket| ==> s[i] == bucket[i];
    assert s[|bucket|] == '/';
    assert |p.0| < |s| && s[|p.0|] == '/';
    assert |p.0| == |bucket|;
    assert p.0 == s[..|bucket|] == bucket;
    assert p.1 == s[|bucket| + 1..] == key;
  }

  /** Building a URI from a bucket and a key and splitting it gives both back. */
  lemma {:induction false} S3UriRoundTrip(bucket: string, key: string)
    requires '/' !in bucket
    ensures S3UriToBucketAndKeyByPrefix(S3Scheme + bucket + "/" + key) == Ok((bucket, key))
  {
    var uri := S3Scheme + bucket + "/" + key;
    assert uri[..|S3Scheme|] == S3Scheme;
    assert uri[|S3Scheme|..] == bucket + "/" + key;
    SplitOnceOf(bucket, key);
  }

  /** What the code returns for a URI built from a bucket, a key and a tail
      of stripped characters: the tail is lost, whatever the key meant. */
  lemma {:induction false} S3UriStripsTail(bucket: string, key: string, tail: string)
    requires '/' !in bucket && |bucket| > 0 && bucket[0] !in S3Chars
    requires |key| > 0 && key[|key| - 1] !in S3Chars
    requires forall i :: 0 <= i < |tail| ==> tail[i] in S3Chars
    ensures S3UriToBucketAndKey(S3Scheme + bucket + "/" + key + tail) == Ok((bucket, key))
  {
    var uri := S3Scheme + bucket + "/" + key + tail;
    var body := bucket + "/" + key;
    assert uri == S3Scheme + body + tail;
    assert body[|body| - 1] == key[|key| - 1];
    assert uri[..|S3Scheme|] == S3Scheme;
    StripParts(S3Scheme, body, tail, S3Chars);
    SplitOnceOf(bucket, key);
  }

  /** The code agrees with the intended split whenever the bucket does not
      start, and the key does not end, with a stripped character. */
  lemma {:induction false} S3UriAgreesOnPlainNames(bucket: string, key: string)
    requires '/' !in bucket && |bucket| > 0 && bucket[0] !in S3Chars
    requires |key| > 0 && key[|key| - 1] !in S3Chars
    ensures S3UriToBucketAndKey(S3Scheme + bucket + "/" + key)
         == S3UriToBucketAndKeyByPrefix(S3Scheme + bucket + "/" + key)
  {
    S3UriStripsTail(bucket, key, "");
    assert S3Scheme + bucket + "/" + key + "" == S3Scheme + bucket + "/" + key;
    S3UriRoundTrip(bucket, key);
  }

  /** A key ending in one of the stripped characters loses it:
      `s3://logs/access3` names the key `access3` but yields `acce`. */
  lemma {:induction false} S3UriTruncatesKey()
    ensures S3UriToBucketAndKeyByPrefix("s3://logs/access3") == Ok(("logs", "access3"))
    ensures S3UriToBucketAndKey("s3://logs/access3") == Ok(("logs", "acce"))
  {
    assert "s3://logs/access3" == S3Scheme + "logs" + "/" + "acce" + "ss3";
    assert "s3://logs/access3" == S3Scheme + "logs" + "/" + "access3";
    S3UriStripsTail("logs", "acce", "ss3");
    S3UriRoundTrip("logs", "access3");
  }

  // ---------------------------------------------------------------- events

  /** `_enrich_event`: data stream, original message and exactly three tags. */
  function EnrichEvent(event: Value, eventType: string, dataset: string, namespace: string)
    : (r: Result<Value, Error>)
    ensures r.Ok? <==> event.Dict? && GetPath(event, ["fields", "message"]).Ok?
    ensures r.Ok? ==> r.value.Dict? && r.value.entries.Keys == event.entries.Keys + {"data_stream", "event", "tags"}
    ensures r.Ok? ==> forall k :: (k in event.entries && k !in {"data_stream", "event", "tags"}
                                   ==> r.value.entries[k] == event.entries[k])
    ensures r.Ok? ==> (r.value.entries["data_stream"]
                       == Dict(map["type" := Str(eventType), "dataset" := Str(dataset), "namespace" := Str(namespace)]))
    ensures r.Ok? ==> (r.value.entries["event"]
                       == Dict(map["dataset" := Str(dataset), "original" := GetPath(event, ["fields", "message"]).value]))
    ensures r.Ok? ==> (var tags := r.value.entries["tags"];
                       && tags.List? && |tags.items| == 3
                       && tags.items[0] == Str("preserve_original_event") && tags.items[1] == Str("forwarded")
                       && tags.items[2] == Str(ReplaceAll(dataset, '.', '-')))
  {
    if !event.Dict? then Err(TypeError)
    else
      var message :- GetPath(event, ["fields", "message"]);
      Ok(Dict(event.entries
        ["data_stream" := Dict(map["type" := Str(eventType), "dataset" := Str(dataset), "namespace" := Str(namespace)])]
        ["event" := Dict(map["dataset" := Str(dataset), "original" := message])]
        ["tags" := StrList(["preserve_original_event", "forwarded", ReplaceAll(dataset, '.', '-')])]))
  }

  /** `_get_bucket_name_from_arn`: the text after the last `:`. */
  function BucketNameFromArn(arn: string): (name: string)
    ensures ':' !in name
    ensures |name| <= |arn| && arn[|arn| - |name|..] == name
    ensures |name| < |arn| ==> arn[|arn| - |name| - 1] == ':'
    ensures ':' !in arn ==> name == arn
  {
    match LastIndexOf(arn, ':')
    case None => arn
    case Some(i) => arn[i + 1..]
  }

  // --------------------------------------------------------------- trigger

  const NotSupported: Error := Exception("Not supported trigger")

  /** The trigger table: event source to trigger type. */
  const AvailableTriggers: map<string, string> := map["aws:sqs" := "sqs"]

  /** `event_source not in _available_triggers` and the lookup: an unhashable
      source raises `TypeError`. */
  function LookupTrigger(source: Value): (r: Result<string, Error>)
    ensures r.Ok? <==> source.Str? && source.s in AvailableTriggers
    ensures r.Ok? ==> r.value == AvailableTriggers[source.s]
  {
    if source.List? || source.Dict? then Err(TypeError)
    else if !source.Str? || source.s !in AvailableTriggers then Err(NotSupported)
    else Ok(AvailableTriggers[source.s])
  }

  /** The checks from the first record on, shared by both guards on `Records`. */
  function TriggerOfRecords(records: Value): (r: Result<string, Error>)
    ensures r.Ok? ==> records.List? && |records.items| > 0
    ensures r.Ok? ==> r.value in AvailableTriggers.Values || r.value == "self_sqs"
  {
    var first :- First(records);
    var hasSource :- In("eventSource", first);
    if !hasSource then Err(NotSupported)
    else
      var source :- GetItem(first, "eventSource");
      var trigger :- LookupTrigger(source);
      if trigger != "sqs" then Ok(trigger)
      else
        match In("messageAttributes", first)
        case Err(e) => Err(e)
        case Ok(hasAttributes) =>
          if !hasAttributes then Ok(trigger)
          else
            match GetItem(first, "messageAttributes")
            case Err(e) => Err(e)
            case Ok(attributes) =>
              match In("originalEventSource", attributes)
              case Err(e) => Err(e)
              case Ok(hasOriginal) => if !hasOriginal then Ok(trigger) else Ok("self_sqs")
  }

  /** `_get_trigger_type` as written: the guard on `Records` joins its two
      tests with `and`, so it never raises its own exception. */
  function GetTriggerType(event: Value): (r: Result<string, Error>)
    ensures r.Ok? ==> r == GetTriggerTypeGuarded(event)
  {
    var hasRecords :- In("Records", event);
    if !hasRecords then
      match GetItem(event, "Records")
      case Err(e) => Err(e)
      case Ok(records) =>
        match Len(records)
        case Err(e) => Err(e)
        case Ok(n) => if n < 1 then Err(NotSupported) else TriggerOfRecords(records)
    else
      var records :- GetItem(event, "Records");
      TriggerOfRecords(records)
  }

  /** The evidently intended guard: missing or empty `Records` is rejected. */
  function GetTriggerTypeGuarded(event: Value): (r: Result<string, Error>)
    ensures r.Ok? ==> event.Dict? && "Records" in event.entries && event.entries["Records"].List?
                      && |event.entries["Records"].items| > 0
    ensures r.Ok? ==> r.value in AvailableTriggers.Values || r.value == "self_sqs"
  {
    var hasRecords :- In("Records", event);
    if !hasRecords then Err(NotSupported)
    else
      var records :- GetItem(event, "Records");
      var n :- Len(records);
      if n < 1 then Err(NotSupported) else TriggerOfRecords(records)
  }

  /** As written, an event without `Records` raises `KeyError` and one with an
      empty `Records` list raises `IndexError`; neither reaches
      "Not supported trigger". */
  lemma {:induction false} TriggerGuardNeverFires(event: Value)
    requires event.Dict?
    ensures "Records" !in event.entries ==> GetTriggerType(event) == Err(KeyError("Records"))
    ensures "Records" in event.entries && event.entries["Records"] == List([])
      ==> GetTriggerType(event) == Err(IndexError)
    ensures GetTriggerType(event) != GetTriggerTypeGuarded(event)
      ==> "Records" !in event.entries || Len(event.entries["Records"]) == Ok(0)
  {
  }

  /** With the intended guard, missing or empty `Records` is "Not supported". */
  lemma {:induction false} GuardedRejectsMissingRecords(event: Value)
    requires event.Dict?
    requires "Records" !in event.entries || Len(event.entries["Records"]) == Ok(0)
    ensures GetTriggerTypeGuarded(event) == Err(NotSupported)
  {
  }

  /** What the trigger type of a well-shaped event is: unsupported unless the
      first record's source is `aws:sqs`, and `self_sqs` exactly when its
      message attributes mention `originalEventSource`. */
  lemma {:induction false} TriggerOfSqsRecord(event: Value)
    requires event.Dict? && "Records" in event.entries
    requires event.entries["Records"].List? && |event.entries["Records"].items| > 0
    requires event.entries["Records"].items[0].Dict?
    ensures var rec := event.entries["Records"].items[0].entries;
      && ("eventSource" !in rec || (rec["eventSource"].Str? && rec["eventSource"].s != "aws:sqs")
          ==> GetTriggerType(event) == Err(NotSupported))
      && ("eventSource" in rec && rec["eventSource"] == Str("aws:sqs") && "messageAttributes" !in rec
          ==> GetTriggerType(event) == Ok("sqs"))
      && ("eventSource" in rec && rec["eventSource"] == Str("aws:sqs") && "messageAttributes" in rec
          && rec["messageAttributes"].Dict?
          ==> GetTriggerType(event)
              == Ok(if "originalEventSource" in rec["messageAttributes"].entries then "self_sqs" else "sqs"))
    ensures GetTriggerType(event) == GetTriggerTypeGuarded(event)
  {
  }
}

=== FILE: bytes.dfy ===
/** Raw bytes as the storage layer sees them, and the byte classes the
    framing decorators care about. */
module Bytes {
  type byte = b: int | 0 <= b < 256
  type bytes = seq<byte>

  const LF: byte := 10
  const CR: byte := 13
  const OpenBrace: byte := 123
  const CRLF: bytes := [CR, LF]

  /** The one-byte line separators Python's `str.splitlines` recognises on
      ASCII text: `\n`, `\x0b`, `\x0c`, `\r`, `\x1c`, `\x1d`, `\x1e`.
      (`\r\n` is the only two-byte separator among them.) They form two
      ranges, `\n`..`\r` and `\x1c`..`\x1e`. */
  predicate IsBreak(b: byte) {
    (LF <= b <= CR) || (28 <= b <= 30)
  }

  /** The ASCII bytes Python's `str.isspace` accepts: `\t`..`\r`, `\x1c`..`\x1f` and space. */
  predicate IsSpace(b: byte) {
    (9 <= b <= 13) || (28 <= b <= 32)
  }

  /** A line with no separator inside it. */
  predicate NoBreak(s: bytes) {
    forall j :: 0 <= j < |s| ==> !IsBreak(s[j])
  }

  /** The bytes used as a character set by `strip(b"\r\n")` and `rstrip(newline)`. */
  function CharSet(s: bytes): set<byte> {
    set b | b in s
  }
}

=== FILE: config.dfy ===
/** The forwarder's configuration (share/config.py): outputs and inputs with
    their validating setters, the `Config` registry of inputs, and
    `parse_config` over an already-parsed YAML tree. */
module Configuration {
  import opened Wrappers
  import opened Seqs
  import opened Values

  const InputTypes: seq<string> := ["cloudwatch-logs", "s3-sqs", "sqs", "kinesis-data-stream"]
  const OutputTypes: seq<string> := ["elasticsearch"]

  const DefaultBatchMaxActions: int := 500
  const DefaultBatchMaxBytes: int := 10 * 1024 * 1024

  /** The keyword parameters `ElasticsearchOutput` accepts. */
  const EsParams: set<string> := {"elasticsearch_url", "cloud_id", "username", "password", "api_key",
                                  "datastream", "tags", "batch_max_actions", "batch_max_bytes"}

  const NoEndpoint: string := "Elasticsearch Output elasticsearch_url or cloud_id must be set"
  const NoCredentials: string := "Elasticsearch Output username and password or api_key must be set"
  const NoPassword: string := "Elasticsearch Output password must be set when using username"

  datatype EsOutput = EsOutput(
    elasticsearchUrl: string,
    cloudId: string,
    username: string,
    password: string,
    apiKey: string,
    datastream: string,
    tags: Value,
    batchMaxActions: int,
    batchMaxBytes: int)

  /** An output: the base class, or the Elasticsearch one. */
  datatype Output = Output(outputType: string) | Elasticsearch(es: EsOutput)
  {
    function Type(): string {
      if Output? then outputType else "elasticsearch"
    }
  }

  /** The include/exclude patterns; the filter built from them is not modelled. */
  datatype IncludeExclude = IncludeExclude(includes: seq<Value>, excludes: seq<Value>)

  datatype Input = Input(
    inputType: string,
    id: string,
    tags: seq<string>,
    outputs: seq<Output>,
    filter: Option<IncludeExclude>)

  /** The registry of inputs, keyed by id. */
  datatype Config = Config(inputs: map<string, Input>)

  // ---------------------------------------------------------------- outputs

  /** `Output(output_type)`: the type setter's two checks. */
  function NewOutput(t: Value): (r: Result<Output, Error>)
    ensures r.Ok? <==> t.Str? && t.s in OutputTypes
    ensures r.Ok? ==> r.value.Type() == t.s
    ensures !t.Str? ==> r == Err(ValueError("Output type must be of type str"))
  {
    if !t.Str? then Err(ValueError("Output type must be of type str"))
    else if t.s !in OutputTypes then
      Err(ValueError("Type must be one of " + Join(",", OutputTypes) + ": " + t.s + " given"))
    else Ok(Output(t.s))
  }

  /** A string keyword argument: absent means the default `""`. */
  function StrParam(kw: map<string, Value>, name: string): Result<string, Error> {
    if name !in kw then Ok("")
    else if kw[name].Str? then Ok(kw[name].s)
    else Err(ValueError("Elasticsearch Output " + name + " must be of type str"))
  }

  /** An integer keyword argument with its default. */
  function IntParam(kw: map<string, Value>, name: string, default: int): Result<int, Error> {
    if name !in kw then Ok(default)
    else if IsInt(kw[name]) then Ok(AsInt(kw[name]))
    else Err(ValueError("Elasticsearch Output " + name + " must be of type int"))
  }

  /** `ElasticsearchOutput(**kw)`: keyword binding, the setters in declaration
      order, then the endpoint and credential rules. */
  function NewElasticsearch(kw: map<string, Value>): Result<Output, Error> {
    if !(kw.Keys <= EsParams) then Err(TypeError)
    else
      var url :- StrParam(kw, "elasticsearch_url");
      var cloud :- StrParam(kw, "cloud_id");
      var user :- StrParam(kw, "username");
      var pass :- StrParam(kw, "password");
      var key :- StrParam(kw, "api_key");
      var ds :- StrParam(kw, "datastream");
      var tags := if "tags" in kw then kw["tags"] else List([]);
      var actions :- IntParam(kw, "batch_max_actions", DefaultBatchMaxActions);
      var size :- IntParam(kw, "batch_max_bytes", DefaultBatchMaxBytes);
      if cloud == "" && url == "" then Err(ValueError(NoEndpoint))
      else
        var cloud' := if cloud != "" && url != "" then "" else cloud;
        if user == "" && key == "" then Err(ValueError(NoCredentials))
        else
          var user' := if user != "" && key != "" then "" else user;
          var pass' := if user != "" && key != "" then "" else pass;
          if user' != "" && pass' == "" then Err(ValueError(NoPassword))
          else Ok(Elasticsearch(EsOutput(url, cloud', user', pass', key, ds, tags, actions, size)))
  }

  /** The string a well-typed keyword argument gives, `""` when absent. */
  function Given(kw: map<string, Value>, name: string): string {
    if name in kw && kw[name].Str? then kw[name].s else ""
  }

  predicate WellTyped(kw: map<string, Value>) {
    && kw.Keys <= EsParams
    && (forall name :: name in kw && name in EsParams - {"tags", "batch_max_actions", "batch_max_bytes"}
          ==> kw[name].Str?)
    && ("batch_max_actions" in kw ==> IsInt(kw["batch_max_actions"]))
    && ("batch_max_bytes" in kw ==> IsInt(kw["batch_max_bytes"]))
  }

  /** The declarative acceptance rule: an endpoint, some credentials, and a
      password whenever the username is the credential in use. */
  predicate EsAccepts(kw: map<string, Value>) {
    && WellTyped(kw)
    && (Given(kw, "elasticsearch_url") != "" || Given(kw, "cloud_id") != "")
    && (Given(kw, "username") != "" || Given(kw, "api_key") != "")
    && (Given(kw, "api_key") == "" && Given(kw, "username") != "" ==> Given(kw, "password") != "")
  }

  lemma {:induction false} StrParamOk(kw: map<string, Value>, name: string)
    ensures StrParam(kw, name).Ok? <==> (name in kw ==> kw[name].Str?)
    ensures StrParam(kw, name).Ok? ==> StrParam(kw, name).value == Given(kw, name)
  {
  }

  /** The constructor succeeds exactly on the configurations `EsAccepts`. */
  lemma {:induction false} ElasticsearchAccepts(kw: map<string, Value>)
    ensures NewElasticsearch(kw).Ok? <==> EsAccepts(kw)
  {
    StrParamOk(kw, "elasticsearch_url");
    StrParamOk(kw, "cloud_id");
    StrParamOk(kw, "username");
    StrParamOk(kw, "password");
    StrParamOk(kw, "api_key");
    StrParamOk(kw, "datastream");
    if WellTyped(kw) {
      assert "elasticsearch_url" in EsParams - {"tags", "batch_max_actions", "batch_max_bytes"};
    }
  }

  /** What an accepted configuration keeps: the url wins over the cloud id, the
      api key wins over username and password, and the batch limits default to
      500 actions and 10 MiB. */
  lemma {:induction false} ElasticsearchSettings(kw: map<string, Value>)
    requires EsAccepts(kw)
    ensures NewElasticsearch(kw).Ok? && NewElasticsearch(kw).value.Elasticsearch?
    ensures var es := NewElasticsearch(kw).value.es;
      && es.elasticsearchUrl == Given(kw, "elasticsearch_url")
      && es.cloudId == (if Given(kw, "elasticsearch_url") != "" then "" else Given(kw, "cloud_id"))
      && es.apiKey == Given(kw, "api_key")
      && es.username == (if Given(kw, "api_key") != "" then "" else Given(kw, "username"))
      && es.password == (if Given(kw, "api_key") != "" && Given(kw, "username") != "" then ""
                         else Given(kw, "password"))
      && es.datastream == Given(kw, "datastream")
      && es.tags == (if "tags" in kw then kw["tags"] else List([]))
      && es.batchMaxActions == (if "batch_max_actions" in kw then AsInt(kw["batch_max_actions"]) else DefaultBatchMaxActions)
      && es.batchMaxBytes == (if "batch_max_bytes" in kw then AsInt(kw["batch_max_bytes"]) else DefaultBatchMaxBytes)
  {
    ElasticsearchAccepts(kw);
    StrParamOk(kw, "elasticsearch_url");
    StrParamOk(kw, "cloud_id");
    StrParamOk(kw, "username");
    StrParamOk(kw, "password");
    StrParamOk(kw, "api_key");
    StrParamOk(kw, "datastream");
  }

  /** Which error a well-typed but rejected configuration raises, in the order
      the constructor checks: endpoint, credentials, password. */
  lemma {:induction false} ElasticsearchRejects(kw: map<string, Value>)
    requires WellTyped(kw) && !EsAccepts(kw)
    ensures Given(kw, "elasticsearch_url") == "" && Given(kw, "cloud_id") == ""
      ==> NewElasticsearch(kw) == Err(ValueError(NoEndpoint))
    ensures (Given(kw, "elasticsearch_url") != "" || Given(kw, "cloud_id") != "")
      && Given(kw, "username") == "" && Given(kw, "api_key") == ""
      ==> NewElasticsearch(kw) == Err(ValueError(NoCredentials))
    ensures (Given(kw, "elasticsearch_url") != "" || Given(kw, "cloud_id") != "")
      && Given(kw, "username") != "" && Given(kw, "api_key") == "" && Given(kw, "password") == ""
      ==> NewElasticsearch(kw) == Err(ValueError(NoPassword))
  {
    assert "elasticsearch_url" in EsParams - {"tags", "batch_max_actions", "batch_max_bytes"};
    StrParamOk(kw, "elasticsearch_url");
    StrParamOk(kw, "cloud_id");
    StrParamOk(kw, "username");
    StrParamOk(kw, "password");
    StrParamOk(kw, "api_key");
    StrParamOk(kw, "datastream");
  }

  /** With an api key present the password rule cannot fire: the username is
      dropped before it is checked. */
  lemma {:induction false} ApiKeyWins(kw: map<string, Value>)
    requires WellTyped(kw)
    requires Given(kw, "elasticsearch_url") != "" || Given(kw, "cloud_id") != ""
    requires Given(kw, "api_key") != ""
    ensures NewElasticsearch(kw).Ok?
    ensures NewElasticsearch(kw).value.es.username == ""
    ensures Given(kw, "username") != "" ==> NewElasticsearch(kw).value.es.password == ""
  {
    ElasticsearchAccepts(kw);
    ElasticsearchSettings(kw);
  }

  // ----------------------------------------------------------------- inputs

  /** `Input(input_type, input_id)`: the type setter, then the id setter. */
  function NewInput(t: Value, id: Value): (r: Result<Input, Error>)
    ensures r.Ok? <==> t.Str? && t.s in InputTypes && id.Str?
    ensures r.Ok? ==> r.value == Input(t.s, id.s, [], [], None)
    ensures !t.Str? ==> r == Err(ValueError("Input type must be of type str"))
  {
    if !t.Str? then Err(ValueError("Input type must be of type str"))
    else if t.s !in InputTypes then
      Err(ValueError("Input type must be one of " + Join(",", InputTypes) + ": " + t.s + " given"))
    else if !id.Str? then Err(ValueError("Input id must be of type str"))
    else Ok(Input(t.s, id.s, [], [], None))
  }

  /** The tags setter: a list whose every element is a string. */
  function SetTags(inp: Input, v: Value): (r: Result<Input, Error>)
    ensures r.Ok? <==> v.List? && forall i :: 0 <= i < |v.items| ==> v.items[i].Str?
    ensures r.Ok? ==> r.value == inp.(tags := r.value.tags) && StrList(r.value.tags) == v
    ensures !v.List? ==> r == Err(ValueError("Tags must be of type list"))
  {
    if !v.List? then Err(ValueError("Tags must be of type list"))
    else
      var tags := StrsOf(v.items);
      if |tags| != |v.items| then Err(ValueError("Each tag must be of type str"))
      else Ok(inp.(tags := tags))
  }

  /** `get_output_types`: the output types in insertion order. */
  function TypesOf(outputs: seq<Output>): (ts: seq<string>)
    ensures |ts| == |outputs|
    ensures forall i :: 0 <= i < |outputs| ==> ts[i] == outputs[i].Type()
  {
    seq(|outputs|, i requires 0 <= i < |outputs| => outputs[i].Type())
  }

  /** The dictionary the outputs are kept in has one entry per type. */
  predicate DistinctTypes(outputs: seq<Output>) {
    forall i, j :: 0 <= i < j < |outputs| ==> outputs[i].Type() != outputs[j].Type()
  }

  /** `get_output_by_type`: `None` for a type never added. */
  function GetOutputByType(inp: Input, t: string): (r: Option<Output>)
    ensures r.None? <==> t !in TypesOf(inp.outputs)
    ensures r.Some? ==> r.value in inp.outputs && r.value.Type() == t
  {
    Find(inp.outputs, t)
  }

  function Find(outputs: seq<Output>, t: string): (r: Option<Output>)
    ensures r.None? <==> t !in TypesOf(outputs)
    ensures r.Some? ==> r.value in outputs && r.value.Type() == t
  {
    if |outputs| == 0 then None
    else if outputs[0].Type() == t then Some(outputs[0])
    else
      var r := Find(outputs[1..], t);
      assert TypesOf(outputs) == [outputs[0].Type()] + TypesOf(outputs[1..]);
      r
  }

  /** The outputs whose type is not `t`. */
  function Without(outputs: seq<Output>, t: string): (r: seq<Output>)
    ensures |r| <= |outputs|
    ensures forall o :: o in r ==> o in outputs
    ensures forall u :: u in TypesOf(r) <==> u in TypesOf(outputs) && u != t
  {
    if |outputs| == 0 then []
    else
      var rest := Without(outputs[1..], t);
      assert TypesOf(outputs) == [outputs[0].Type()] + TypesOf(outputs[1..]);
      if outputs[0].Type() == t then rest
      else
        assert TypesOf([outputs[0]] + rest) == [outputs[0].Type()] + TypesOf(rest);
        [outputs[0]] + rest
  }

  /** `delete_output_by_type`: `del` on a missing key raises `KeyError`. */
  function DeleteOutputByType(inp: Input, t: string): (r: Result<Input, Error>)
    ensures r.Err? <==> t !in TypesOf(inp.outputs)
    ensures r.Err? ==> r.error == KeyError(t)
    ensures r.Ok? ==> r.value == inp.(outputs := r.value.outputs)
  {
    if t !in TypesOf(inp.outputs) then Err(KeyError(t))
    else Ok(inp.(outputs := Without(inp.outputs, t)))
  }

  /** The keyword rewrite `add_output` applies for Elasticsearch. */
  function Remap(kw: map<string, Value>): (r: map<string, Value>)
    ensures "es_index_or_datastream_name" !in r
    ensures "datastream" in r <==> "datastream" in kw || "es_index_or_datastream_name" in kw
    ensures "datastream" in kw ==> r["datastream"] == kw["datastream"]
    ensures "datastream" !in kw && "es_index_or_datastream_name" in kw
      ==> r["datastream"] == kw["es_index_or_datastream_name"]
    ensures forall k :: (k in kw && k != "es_index_or_datastream_name" && k != "datastream"
      ==> k in r && r[k] == kw[k])
    ensures r.Keys <= kw.Keys + {"datastream"}
  {
    if "es_index_or_datastream_name" in kw then
      var withDs := if "datastream" !in kw then kw["datastream" := kw["es_index_or_datastream_name"]] else kw;
      withDs - {"es_index_or_datastream_name"}
    else kw
  }

  /** `add_output(output_type, **kw)`. */
  function AddOutput(inp: Input, t: Value, kw: map<string, Value>): (r: Result<Input, Error>)
    ensures t.Str? && t.s in TypesOf(inp.outputs) ==> r == Err(ValueError("Duplicated Output " + t.s))
    ensures r.Ok? ==> t.Str? && t.s !in TypesOf(inp.outputs)
    ensures r.Ok? ==> exists o :: r.value == inp.(outputs := inp.outputs + [o]) && o.Type() == t.s
  {
    if !t.Str? then Err(ValueError("Output type must be of type str"))
    else if t.s in TypesOf(inp.outputs) then Err(ValueError("Duplicated Output " + t.s))
    else
      var o :- if t.s == "elasticsearch" then NewElasticsearch(Remap(kw)) else NewOutput(t);
      assert o.Type() == t.s;
      Ok(inp.(outputs := inp.outputs + [o]))
  }

  /** Only Elasticsearch outputs can ever be added, and the one added carries
      the (remapped) keyword arguments' tags. */
  lemma {:induction false} AddOutputElasticsearch(inp: Input, t: Value, kw: map<string, Value>)
    requires AddOutput(inp, t, kw).Ok?
    ensures t == Str("elasticsearch")
    ensures var outs := AddOutput(inp, t, kw).value.outputs;
      && outs[..|inp.outputs|] == inp.outputs
      && outs[|inp.outputs|] == NewElasticsearch(Remap(kw)).value
      && outs[|inp.outputs|].Elasticsearch?
      && outs[|inp.outputs|].es.tags == (if "tags" in kw then kw["tags"] else List([]))
  {
    var k := Remap(kw);
    ElasticsearchAccepts(k);
    ElasticsearchSettings(k);
    assert "tags" in k <==> "tags" in kw;
  }

  /** Adding keeps one output per type, and the new one is found by its type. */
  lemma {:induction false} AddOutputThenGet(inp: Input, t: Value, kw: map<string, Value>)
    requires DistinctTypes(inp.outputs)
    requires AddOutput(inp, t, kw).Ok?
    ensures DistinctTypes(AddOutput(inp, t, kw).value.outputs)
    ensures GetOutputByType(AddOutput(inp, t, kw).value, t.s).Some?
  {
    var outs := AddOutput(inp, t, kw).value.outputs;
    assert outs[..|inp.outputs|] == inp.outputs;
    assert forall i :: 0 <= i < |inp.outputs| ==> inp.outputs[i].Type() in TypesOf(inp.outputs);
    assert TypesOf(outs)[|inp.outputs|] == t.s;
  }

  /** Deleting a present type removes it and nothing else. */
  lemma {:induction false} DeleteThenGet(inp: Input, t: string, u: string)
    requires t in TypesOf(inp.outputs)
    ensures DeleteOutputByType(inp, t).Ok?
    ensures GetOutputByType(DeleteOutputByType(inp, t).value, t).None?
    ensures u != t ==> GetOutputByType(DeleteOutputByType(inp, t).value, u) == GetOutputByType(inp, u)
  {
    if u != t {
      FindWithout(inp.outputs, t, u);
    }
  }

  /** Removing one type leaves the lookup of every other type unchanged. */
  lemma {:induction false} FindWithout(outputs: seq<Output>, t: string, u: string)
    requires u != t
    ensures Find(Without(outputs, t), u) == Find(outputs, u)
    decreases |outputs|
  {
    if |outputs| > 0 {
      FindWithout(outputs[1..], t, u);
      if outputs[0].Type() != t {
        var rest := Without(outputs[1..], t);
        assert ([outputs[0]] + rest)[1..] == rest;
      }
    }
  }

  // ----------------------------------------------------------------- config

  /** `get_input_by_id`: `None` for an unknown id. */
  function GetInputById(c: Config, id: string): (r: Option<Input>)
    ensures r.Some? <==> id in c.inputs
    ensures r.Some? ==> r.value == c.inputs[id]
  {
    if id in c.inputs then Some(c.inputs[id]) else None
  }

  /** `add_input`: ids are unique. */
  function AddInput(c: Config, inp: Input): (r: Result<Config, Error>)
    ensures r.Err? <==> inp.id in c.inputs
    ensures r.Err? ==> r.error == ValueError("duplicated input " + inp.id)
    ensures r.Ok? ==> GetInputById(r.value, inp.id) == Some(inp)
    ensures r.Ok? ==> forall id :: id != inp.id ==> GetInputById(r.value, id) == GetInputById(c, id)
    ensures r.Ok? ==> |r.value.inputs| == |c.inputs| + 1
  {
    if inp.id in c.inputs then Err(ValueError("duplicated input " + inp.id))
    else Ok(Config(c.inputs[inp.id := inp]))
  }

  // ----------------------------------------------------------- parse_config

  /** The optional include or exclude list of an input. */
  function Rules(m: map<string, Value>, key: string): (r: Result<seq<Value>, Error>)
    ensures r.Err? <==> key in m && !m[key].List?
    ensures r.Ok? ==> r.value == (if key in m then m[key].items else [])
  {
    if key !in m then Ok([])
    else if !m[key].List? then Err(ValueError("Must be provided list type for " + key))
    else Ok(m[key].items)
  }

  /** The outputs of one input: each needs a string type and a dict of args,
      and receives the input's tags before `add_output` is called. */
  function ParseOutputs(items: seq<Value>, inp: Input): Result<Input, Error>
    decreases |items|
  {
    if |items| == 0 then Ok(inp)
    else
      var v := items[0];
      var hasType :- HasStrAt(v, "type");
      if !hasType then Err(ValueError("Must be provided str type for output"))
      else
        var hasArgs :- HasDictAt(v, "args");
        if !hasArgs then Err(ValueError("Must be provided dict args for output"))
        else
          var args := v.entries["args"].entries["tags" := StrList(inp.tags)];
          if "output_type" in args || "self" in args then Err(TypeError)
          else
            var inp' :- AddOutput(inp, v.entries["type"], args);
            ParseOutputs(items[1..], inp')
  }

  /** One input entry of the tree. */
  function ParseInput(v: Value): Result<Input, Error> {
    var hasType :- HasStrAt(v, "type");
    if !hasType then Err(ValueError("Must be provided str type for input"))
    else
      var hasId :- HasStrAt(v, "id");
      if !hasId then Err(ValueError("Must be provided str id for input"))
      else
        var m := v.entries;
        var inp :- NewInput(m["type"], m["id"]);
        var tagged :- if "tags" in m then SetTags(inp, m["tags"]) else Ok(inp);
        var includes :- Rules(m, "include");
        var excludes :- Rules(m, "exclude");
        var filtered := if |includes| > 0 || |excludes| > 0
          then tagged.(filter := Some(IncludeExclude(includes, excludes))) else tagged;
        var hasOutputs :- HasListAt(v, "outputs");
        if !hasOutputs then Err(ValueError("No valid outputs for input"))
        else ParseOutputs(m["outputs"].items, filtered)
  }

  function ParseInputs(items: seq<Value>, c: Config): Result<Config, Error>
    decreases |items|
  {
    if |items| == 0 then Ok(c)
    else
      var inp :- ParseInput(items[0]);
      var c' :- AddInput(c, inp);
      ParseInputs(items[1..], c')
  }

  /** `parse_config` applied to the tree the YAML loader produced. */
  function ParseConfig(root: Value): Result<Config, Error> {
    if !root.Dict? then Err(AssertionError)
    else if !("inputs" in root.entries && root.entries["inputs"].List?) then Err(ValueError("No inputs provided"))
    else ParseInputs(root.entries["inputs"].items, Config(map[]))
  }

  /** What every parsed input satisfies: a listed type, one output per type,
      and every output an Elasticsearch one carrying the input's tags. */
  predicate WellFormedInput(inp: Input) {
    && inp.inputType in InputTypes
    && DistinctTypes(inp.outputs)
    && forall i :: 0 <= i < |inp.outputs| ==>
         inp.outputs[i].Elasticsearch? && inp.outputs[i].es.tags == StrList(inp.tags)
  }

  /** With "elasticsearch" the only output type, a well-formed input has at
      most one output. */
  lemma {:induction false} AtMostOneOutput(inp: Input)
    requires WellFormedInput(inp)
    ensures |inp.outputs| <= 1
  {
    assert |inp.outputs| > 1 ==> inp.outputs[0].Type() == inp.outputs[1].Type();
  }

  predicate WellFormed(c: Config) {
    forall id :: id in c.inputs ==> c.inputs[id].id == id && WellFormedInput(c.inputs[id])
  }

  lemma {:induction false} ParseOutputsWellFormed(items: seq<Value>, inp: Input)
    requires WellFormedInput(inp)
    requires ParseOutputs(items, inp).Ok?
    ensures WellFormedInput(ParseOutputs(items, inp).value)
    ensures ParseOutputs(items, inp).value == inp.(outputs := ParseOutputs(items, inp).value.outputs)
    decreases |items|
  {
    if |items| > 0 {
      var v := items[0];
      var args := v.entries["args"].entries["tags" := StrList(inp.tags)];
      var t := v.entries["type"];
      var inp' := AddOutput(inp, t, args).value;
      AddOutputElasticsearch(inp, t, args);
      AddOutputThenGet(inp, t, args);
      assert WellFormedInput(inp') by {
        forall i | 0 <= i < |inp'.outputs|
          ensures inp'.outputs[i].Elasticsearch? && inp'.outputs[i].es.tags == StrList(inp'.tags)
        {
        }
      }
      ParseOutputsWellFormed(items[1..], inp');
    }
  }

  lemma {:induction false} ParseInputWellFormed(v: Value)
    requires ParseInput(v).Ok?
    ensures WellFormedInput(ParseInput(v).value)
  {
    var m := v.entries;
    var inp := NewInput(m["type"], m["id"]).value;
    var tagged := if "tags" in m then SetTags(inp, m["tags"]).value else inp;
    var includes := Rules(m, "include").value;
    var excludes := Rules(m, "exclude").value;
    var filtered := if |includes| > 0 || |excludes| > 0
      then tagged.(filter := Some(IncludeExclude(includes, excludes))) else tagged;
    assert WellFormedInput(filtered);
    ParseOutputsWellFormed(m["outputs"].items, filtered);
  }

  lemma {:induction false} ParseInputsWellFormed(items: seq<Value>, c: Config)
    requires WellFormed(c)
    requires ParseInputs(items, c).Ok?
    ensures WellFormed(ParseInputs(items, c).value)
    ensures |ParseInputs(items, c).value.inputs| == |c.inputs| + |items|
    decreases |items|
  {
    if |items| > 0 {
      var inp := ParseInput(items[0]).value;
      ParseInputWellFormed(items[0]);
      var c' := AddInput(c, inp).value;
      assert WellFormed(c');
      ParseInputsWellFormed(items[1..], c');
    }
  }

  /** A parsed configuration holds one input per entry of the tree's input
      list (so their ids were distinct), each well formed. */
  lemma {:induction false} ParseConfigWellFormed(root: Value)
    requires ParseConfig(root).Ok?
    ensures root.Dict? && "inputs" in root.entries && root.entries["inputs"].List?
    ensures WellFormed(ParseConfig(root).value)
    ensures |ParseConfig(root).value.inputs| == |root.entries["inputs"].items|
  {
    ParseInputsWellFormed(root.entries["inputs"].items, Config(map[]));
  }

  /** The tree-level errors: a root that is not a mapping fails the assertion,
      a missing or non-list `inputs` is "No inputs provided", and the first
      input that fails to parse fails the whole configuration. */
  lemma {:induction false} ParseConfigRejects(root: Value)
    ensures !root.Dict? ==> ParseConfig(root) == Err(AssertionError)
    ensures root.Dict? && !("inputs" in root.entries && root.entries["inputs"].List?)
      ==> ParseConfig(root) == Err(ValueError("No inputs provided"))
    ensures root.Dict? && "inputs" in root.entries && root.entries["inputs"].List?
      && |root.entries["inputs"].items| > 0 && ParseInput(root.entries["inputs"].items[0]).Err?
      ==> ParseConfig(root) == Err(ParseInput(root.entries["inputs"].items[0]).error)
  {
  }

  /** The errors of one input entry, in the order they are checked. */
  lemma {:induction false} ParseInputRejects(v: Value)
    requires v.Dict?
    ensures !("type" in v.entries && v.entries["type"].Str?)
      ==> ParseInput(v) == Err(ValueError("Must be provided str type for input"))
    ensures "type" in v.entries && v.entries["type"].Str? && !("id" in v.entries && v.entries["id"].Str?)
      ==> ParseInput(v) == Err(ValueError("Must be provided str id for input"))
    ensures "type" in v.entries && v.entries["type"].Str? && v.entries["type"].s !in InputTypes
      ==> ParseInput(v).Err?
    ensures "tags" in v.entries && !v.entries["tags"].List? ==> ParseInput(v).Err?
    ensures ParseInput(v).Ok? ==> "outputs" in v.entries && v.entries["outputs"].List?
  {
  }

  /** The errors of one output entry: a string type and a mapping of args are
      required, args that name `add_output`'s own parameters fail to bind, and
      the input's tags are what the added output receives. */
  lemma {:induction false} ParseOutputsRejects(items: seq<Value>, inp: Input)
    requires |items| > 0 && items[0].Dict?
    ensures var m := items[0].entries;
      !("type" in m && m["type"].Str?)
      ==> ParseOutputs(items, inp) == Err(ValueError("Must be provided str type for output"))
    ensures var m := items[0].entries;
      "type" in m && m["type"].Str? && !("args" in m && m["args"].Dict?)
      ==> ParseOutputs(items, inp) == Err(ValueError("Must be provided dict args for output"))
    ensures var m := items[0].entries;
      "type" in m && m["type"].Str? && "args" in m && m["args"].Dict?
      && ("output_type" in m["args"].entries || "self" in m["args"].entries)
      ==> ParseOutputs(items, inp) == Err(TypeError)
    ensures var m := items[0].entries;
      "type" in m && m["type"].Str? && "args" in m && m["args"].Dict?
      && "output_type" !in m["args"].entries && "self" !in m["args"].entries
      ==> ParseOutputs(items, inp)
          == (match AddOutput(inp, m["type"], m["args"].entries["tags" := StrList(inp.tags)])
              case Err(e) => Err(e)
              case Ok(inp') => ParseOutputs(items[1..], inp'))
  {
  }
}

=== FILE: decimal.dfy ===
/** Python's `format(n, "0<w>d")`: the decimal rendering of an integer,
    zero-padded to a minimum width with the sign in front, and its inverse. */
module Decimal {

  predicate IsDigit(c: char) {
    '0' <= c <= '9'
  }

  function DigitChar(d: nat): (c: char)
    requires d < 10
    ensures IsDigit(c) && c as int - '0' as int == d
  {
    ('0' as int + d) as char
  }

  function DigitValue(c: char): (d: nat)
    requires IsDigit(c)
    ensures d < 10
  {
    c as int - '0' as int
  }

  /** The digits of `n` without leading zeros (`"0"` for zero). */
  function Digits(n: nat): (s: string)
    ensures |s| > 0
    ensures forall i :: 0 <= i < |s| ==> IsDigit(s[i])
    decreases n
  {
    if n < 10 then [DigitChar(n)] else Digits(n / 10) + [DigitChar(n % 10)]
  }

  function Pow10(n: nat): (p: nat)
    ensures p >= 1
  {
    if n == 0 then 1 else 10 * Pow10(n - 1)
  }

  lemma {:induction false} Pow10Twelve()
    ensures Pow10(12) == 1_000_000_000_000
  {
    assert Pow10(3) == 1000;
    assert Pow10(6) == 1000 * Pow10(3) by {
      assert Pow10(4) == 10 * Pow10(3);
      assert Pow10(5) == 100 * Pow10(3);
    }
    assert Pow10(9) == 1000 * Pow10(6) by {
      assert Pow10(7) == 10 * Pow10(6);
      assert Pow10(8) == 100 * Pow10(6);
    }
    assert Pow10(12) == 1000 * Pow10(9) by {
      assert Pow10(10) == 10 * Pow10(9);
      assert Pow10(11) == 100 * Pow10(9);
    }
  }

  /** A number below 10^w has at most w digits. */
  lemma {:induction false} DigitsBound(n: nat, w: nat)
    requires w >= 1 && n < Pow10(w)
    ensures |Digits(n)| <= w
    decreases w
  {
    if n >= 10 {
      assert w >= 2 by {
        assert Pow10(1) == 10;
      }
      DigitsBound(n / 10, w - 1);
    }
  }

  /** The number a string of digits denotes. */
  function ValueOf(s: string): nat
    requires forall i :: 0 <= i < |s| ==> IsDigit(s[i])
  {
    if |s| == 0 then 0 else ValueOf(s[..|s| - 1]) * 10 + DigitValue(s[|s| - 1])
  }

  function Zeros(n: nat): (s: string)
    ensures |s| == n
    ensures forall i :: 0 <= i < n ==> s[i] == '0'
  {
    seq(n, _ => '0')
  }

  /** `s` left-padded with zeros to at least `width` characters. */
  function ZeroPad(s: string, width: nat): (r: string)
    ensures |r| == if |s| < width then width else |s|
  {
    if |s| < width then Zeros(width - |s|) + s else s
  }

  /** `format(n, "0<width>d")`: a minus sign counts towards the width. */
  function Format(n: int, width: nat): (s: string)
    ensures |s| >= width && |s| > 0
    ensures n >= 0 ==> forall i :: 0 <= i < |s| ==> IsDigit(s[i])
    ensures n < 0 ==> s[0] == '-' && forall i :: 1 <= i < |s| ==> IsDigit(s[i])
  {
    if n >= 0 then ZeroPad(Digits(n), width)
    else "-" + ZeroPad(Digits(-n), if width > 0 then width - 1 else 0)
  }

  /** `int(s)` for an optionally signed string of digits. */
  function Parse(s: string): (n: int)
    requires |s| > 0
    requires s[0] == '-' || IsDigit(s[0])
    requires forall i :: 1 <= i < |s| ==> IsDigit(s[i])
  {
    if s[0] == '-' then 0 - ValueOf(s[1..]) else ValueOf(s)
  }

  lemma {:induction false} ValueOfDigits(n: nat)
    ensures ValueOf(Digits(n)) == n
    decreases n
  {
    if n >= 10 {
      var s := Digits(n);
      assert s[..|s| - 1] == Digits(n / 10);
      ValueOfDigits(n / 10);
    }
  }

  /** Leading zeros do not change the value. */
  lemma {:induction false} ValueOfZeros(k: nat, s: string)
    requires forall i :: 0 <= i < |s| ==> IsDigit(s[i])
    ensures forall i :: 0 <= i < |Zeros(k) + s| ==> IsDigit((Zeros(k) + s)[i])
    ensures ValueOf(Zeros(k) + s) == ValueOf(s)
    decreases |s|
  {
    var z := Zeros(k) + s;
    assert forall i :: 0 <= i < |z| ==> IsDigit(z[i]);
    if |s| == 0 {
      ValueOfAllZeros(Zeros(k));
      assert z == Zeros(k);
    } else {
      assert z[..|z| - 1] == Zeros(k) + s[..|s| - 1];
      ValueOfZeros(k, s[..|s| - 1]);
    }
  }

  lemma {:induction false} ValueOfAllZeros(z: string)
    requires forall i :: 0 <= i < |z| ==> z[i] == '0'
    ensures ValueOf(z) == 0
    decreases |z|
  {
    if |z| > 0 {
      ValueOfAllZeros(z[..|z| - 1]);
    }
  }

  /** Parsing a formatted number gives the number back, whatever the width. */
  lemma {:induction false} ParseFormat(n: int, width: nat)
    ensures Parse(Format(n, width)) == n
  {
    var m: nat := if n >= 0 then n else -n;
    var w: nat := if n >= 0 then width else if width > 0 then width - 1 else 0;
    var d := Digits(m);
    var p := ZeroPad(d, w);
    ValueOfDigits(m);
    if |d| < w {
      ValueOfZeros(w - |d|, d);
    }
    assert ValueOf(p) == m;
    if n < 0 {
      assert Format(n, width)[1..] == p;
    }
  }
}

=== FILE: es_shipper.dfy ===
/** The Elasticsearch shipper (shippers/es.py): connection settings chosen by
    precedence, event enrichment, deterministic document ids, the bulk buffer
    and its flushing, failure replay, and dataset discovery from an S3 object
    key. The Elasticsearch client and the bulk helper are oracles. */
module EsShipper {
  import opened Wrappers
  import opened Seqs
  import opened Values
  import Decimal

  datatype Endpoint = Hosts(hosts: seq<string>) | CloudId(cloudId: string)

  datatype Auth = HttpAuth(username: string, password: string) | ApiKey(apiKey: string)

  /** The keyword arguments every bulk request is made with. */
  datatype BulkKwargs = BulkKwargs(
    maxRetries: int,
    statsOnly: bool,
    raiseOnError: bool,
    raiseOnException: bool,
    maxChunkBytes: int,
    chunkSize: Option<int>)

  /** One call of the replay handler: output type, replay arguments, action. */
  datatype Replay = Replay(outputType: string, args: map<string, Value>, action: Value)

  /** What the bulk helper reports: the number of successes and one error
      entry per failed action. */
  datatype BulkOutcome = BulkOutcome(success: int, errors: seq<Value>)

  type Bulk = (seq<Value>, BulkKwargs) -> BulkOutcome

  datatype Shipper = Shipper(
    endpoint: Endpoint,
    auth: Auth,
    bulkKwargs: BulkKwargs,
    batchSize: int,
    actions: seq<Value>,
    dataset: string,
    namespace: string,
    tags: seq<string>,
    index: Option<string>,
    replayArgs: map<string, Value>,
    hasReplayHandler: bool)

  const NoEndpoint: string := "You must provide one between elasticsearch_url or cloud_id"
  const NoCredentials: string := "You must provide one between username and password or api_key"
  const EmptyIndex: string := "Elasticsearch index cannot be empty"

  // ------------------------------------------------------------ constructor

  function MakeBulkKwargs(batchMaxActions: int, batchMaxBytes: int): (k: BulkKwargs)
    ensures k.maxRetries == 10 && !k.statsOnly && !k.raiseOnError && !k.raiseOnException
    ensures k.maxChunkBytes == batchMaxBytes
    ensures k.chunkSize.Some? <==> batchMaxActions > 0
    ensures k.chunkSize.Some? ==> k.chunkSize.value == batchMaxActions
  {
    BulkKwargs(10, false, false, false, batchMaxBytes,
               if batchMaxActions > 0 then Some(batchMaxActions) else None)
  }

  /** `ElasticsearchShipper(...)`: the url is preferred to the cloud id and the
      username to the api key; the password is not checked here. */
  function NewShipper(
    url: string, username: string, password: string, cloudId: string, apiKey: string,
    dataset: string, namespace: string, tags: seq<string>,
    batchMaxActions: int, batchMaxBytes: int): (r: Result<Shipper, Error>)
    ensures r.Ok? <==> (url != "" || cloudId != "") && (username != "" || apiKey != "")
    ensures url == "" && cloudId == "" ==> r == Err(ValueError(NoEndpoint))
    ensures (url != "" || cloudId != "") && username == "" && apiKey == "" ==> r == Err(ValueError(NoCredentials))
    ensures r.Ok? ==> r.value.endpoint == (if url != "" then Hosts([url]) else CloudId(cloudId))
    ensures r.Ok? ==> r.value.auth == (if username != "" then HttpAuth(username, password) else ApiKey(apiKey))
    ensures r.Ok? ==> r.value.actions == [] && r.value.index.None? && !r.value.hasReplayHandler
    ensures r.Ok? ==> (r.value.batchSize == batchMaxActions
                       && r.value.bulkKwargs == MakeBulkKwargs(batchMaxActions, batchMaxBytes))
  {
    var kwargs := MakeBulkKwargs(batchMaxActions, batchMaxBytes);
    if url == "" && cloudId == "" then Err(ValueError(NoEndpoint))
    else
      var endpoint := if url != "" then Hosts([url]) else CloudId(cloudId);
      if username == "" && apiKey == "" then Err(ValueError(NoCredentials))
      else
        var auth := if username != "" then HttpAuth(username, password) else ApiKey(apiKey);
        Ok(Shipper(endpoint, auth, kwargs, batchMaxActions, [], dataset, namespace, tags, None, map[], false))
  }

  function SetReplayHandler(sh: Shipper): (sh': Shipper)
    ensures sh'.hasReplayHandler && sh' == sh.(hasReplayHandler := true)
  {
    sh.(hasReplayHandler := true)
  }

  // ------------------------------------------------------------- document id

  /** The first `n` elements, or all of them when there are fewer (`s[:n]`). */
  function Take<T>(s: seq<T>, n: nat): (r: seq<T>)
    ensures |r| == if |s| < n then |s| else n
    ensures r == s[..|r|]
  {
    if |s| <= n then s else s[..n]
  }

  /** `f"{hex_prefix}-{offset:012d}"` with `hex_prefix` the first ten
      characters of the digest of bucket arn followed by object key. */
  function ObjectId(digest: string, offset: int): string {
    Take(digest, 10) + "-" + Decimal.Format(offset, 12)
  }

  /** The id splits back into the digest prefix and the offset, so it is
      determined by, and determines, the pair; an offset below 10^12 gives
      exactly 23 characters. */
  lemma {:induction false} ObjectIdRoundTrip(digest: string, offset: int)
    requires |digest| >= 10
    ensures var id := ObjectId(digest, offset);
      && |id| >= 23
      && id[..10] == digest[..10]
      && id[10] == '-'
      && (id[11] == '-' || Decimal.IsDigit(id[11]))
      && (forall i :: 12 <= i < |id| ==> Decimal.IsDigit(id[i]))
      && Decimal.Parse(id[11..]) == offset
    ensures 0 <= offset < 1_000_000_000_000 ==> |ObjectId(digest, offset)| == 23
  {
    var f := Decimal.Format(offset, 12);
    var id := ObjectId(digest, offset);
    assert id[11..] == f;
    assert forall i :: 12 <= i < |id| ==> id[i] == f[i - 11];
    Decimal.ParseFormat(offset, 12);
    if 0 <= offset < 1_000_000_000_000 {
      Decimal.Pow10Twelve();
      Decimal.DigitsBound(offset, 12);
    }
  }

  const OffsetPath: seq<string> := ["fields", "log", "offset"]
  const ArnPath: seq<string> := ["fields", "aws", "s3", "bucket", "arn"]
  const KeyPath: seq<string> := ["fields", "aws", "s3", "object", "key"]

  /** The ValueError `:012d` raises on a string or a float. */
  function FormatCodeError(typeName: string): string {
    "Unknown format code 'd' for object of type '" + typeName + "'"
  }

  /** `_s3_object_id(event)`: the three lookups, then the id. An integer or
      boolean offset is formatted; a string or float offset raises ValueError
      and any other offset TypeError. */
  function S3ObjectId(event: Value, hexdigest: string -> string): (r: Result<string, Error>)
    ensures r.Ok? ==> GetPath(event, OffsetPath).Ok? && IsInt(GetPath(event, OffsetPath).value)
    ensures r.Ok? ==> GetPath(event, ArnPath).Ok? && GetPath(event, ArnPath).value.Str?
    ensures r.Ok? ==> GetPath(event, KeyPath).Ok? && GetPath(event, KeyPath).value.Str?
    ensures r.Ok? ==> r.value == ObjectId(hexdigest(GetPath(event, ArnPath).value.s + GetPath(event, KeyPath).value.s),
                                          AsInt(GetPath(event, OffsetPath).value))
    ensures GetPath(event, OffsetPath).Ok? && GetPath(event, ArnPath).Ok? && GetPath(event, KeyPath).Ok?
            && GetPath(event, ArnPath).value.Str? && GetPath(event, KeyPath).value.Str?
            ==> match GetPath(event, OffsetPath).value
                case Str(_) => r == Err(ValueError(FormatCodeError("str")))
                case Float(_) => r == Err(ValueError(FormatCodeError("float")))
                case Null => r == Err(TypeError)
                case List(_) => r == Err(TypeError)
                case Dict(_) => r == Err(TypeError)
                case _ => r.Ok?
  {
    var offset :- GetPath(event, OffsetPath);
    var arn :- GetPath(event, ArnPath);
    var key :- GetPath(event, KeyPath);
    if !arn.Str? || !key.Str? then Err(TypeError)
    else if offset.Str? then Err(ValueError(FormatCodeError("str")))
    else if offset.Float? then Err(ValueError(FormatCodeError("float")))
    else if !IsInt(offset) then Err(TypeError)
    else Ok(ObjectId(hexdigest(arn.s + key.s), AsInt(offset)))
  }

  // -------------------------------------------------------------- enrichment

  function EnrichTags(dataset: string, tags: seq<string>): (ts: seq<string>)
    ensures |ts| == 3 + |tags| && ts[3..] == tags
    ensures ts[0] == "preserve_original_event" && ts[1] == "forwarded"
    ensures |ts[2]| == |dataset| && '.' !in ts[2]
    ensures forall i :: 0 <= i < |dataset| ==> ts[2][i] == (if dataset[i] == '.' then '-' else dataset[i])
  {
    ["preserve_original_event", "forwarded", ReplaceAll(dataset, '.', '-')] + tags
  }

  /** `_enrich_event`: data stream, original message and tags. */
  function Enrich(sh: Shipper, event: Value): (r: Result<Value, Error>)
    ensures r.Ok? <==> event.Dict? && GetPath(event, ["fields", "message"]).Ok?
    ensures r.Ok? ==> r.value.Dict? && r.value.entries.Keys == event.entries.Keys + {"data_stream", "event", "tags"}
    ensures r.Ok? ==> forall k :: (k in event.entries && k !in {"data_stream", "event", "tags"}
                                   ==> r.value.entries[k] == event.entries[k])
    ensures r.Ok? ==> (r.value.entries["data_stream"]
                       == Dict(map["type" := Str("logs"), "dataset" := Str(sh.dataset), "namespace" := Str(sh.namespace)]))
    ensures r.Ok? ==> (r.value.entries["event"]
                       == Dict(map["dataset" := Str(sh.dataset), "original" := GetPath(event, ["fields", "message"]).value]))
    ensures r.Ok? ==> r.value.entries["tags"] == StrList(EnrichTags(sh.dataset, sh.tags))
  {
    if !event.Dict? then Err(TypeError)
    else
      var message :- GetPath(event, ["fields", "message"]);
      Ok(Dict(event.entries
        ["data_stream" := Dict(map["type" := Str("logs"), "dataset" := Str(sh.dataset), "namespace" := Str(sh.namespace)])]
        ["event" := Dict(map["dataset" := Str(sh.dataset), "original" := message])]
        ["tags" := StrList(EnrichTags(sh.dataset, sh.tags))]))
  }

  /** Enriching twice is enriching once: `fields.message` is left alone. */
  lemma {:induction false} EnrichIdempotent(sh: Shipper, event: Value)
    requires Enrich(sh, event).Ok?
    ensures Enrich(sh, Enrich(sh, event).value) == Enrich(sh, event)
  {
    var e := Enrich(sh, event).value;
    assert e.entries["fields"] == event.entries["fields"];
    assert GetPath(e, ["fields", "message"]) == GetPath(event, ["fields", "message"]) by {
      assert ["fields", "message"][1..] == ["message"];
    }
    assert Enrich(sh, e).value.entries == e.entries;
  }

  // -------------------------------------------------------------------- send

  /** `_op_type` forced to "create", and `_index` filled in only when absent. */
  function Stamp(entries: map<string, Value>, index: string): (m: map<string, Value>)
    ensures m.Keys == entries.Keys + {"_op_type", "_index"}
    ensures m["_op_type"] == Str("create")
    ensures m["_index"] == if "_index" in entries then entries["_index"] else Str(index)
    ensures forall k :: k in entries && k != "_op_type" && k != "_index" ==> m[k] == entries[k]
  {
    var m := entries["_op_type" := Str("create")];
    if "_index" in m then m else m["_index" := Str(index)]
  }

  /** `_id` filled in from the S3 object id only when absent. */
  function AddId(m: map<string, Value>, hexdigest: string -> string): (r: Result<Value, Error>)
    ensures r.Ok? ==> r.value.Dict? && r.value.entries.Keys == m.Keys + {"_id"}
    ensures r.Ok? ==> forall k :: k in m && k != "_id" ==> r.value.entries[k] == m[k]
    ensures r.Ok? && "_id" in m ==> r.value.entries["_id"] == m["_id"]
    ensures "_id" in m ==> r.Ok?
  {
    if "_id" in m then Ok(Dict(m))
    else
      var id :- S3ObjectId(Dict(m), hexdigest);
      Ok(Dict(m["_id" := Str(id)]))
  }

  /** The action `send` buffers: enriched, with `_op_type` forced to "create"
      and `_index`/`_id` filled in only when absent. */
  function Prepare(sh: Shipper, event: Value, hexdigest: string -> string): (r: Result<Value, Error>)
    ensures r.Ok? ==> sh.index.Some? && sh.index.value != ""
    ensures (sh.index.None? || sh.index == Some("")) && Enrich(sh, event).Ok?
      ==> r == Err(ValueError(EmptyIndex))
    ensures r.Ok? ==> Action(r.value)
  {
    var enriched :- Enrich(sh, event);
    if sh.index.None? || sh.index.value == "" then Err(ValueError(EmptyIndex))
    else AddId(Stamp(enriched.entries, sh.index.value), hexdigest)
  }

  /** Where `_index` and `_id` come from: an event's own values are kept, and a
      missing `_index` becomes the shipper's index. */
  lemma {:induction false} PrepareFields(sh: Shipper, event: Value, hexdigest: string -> string)
    requires Prepare(sh, event, hexdigest).Ok?
    ensures event.Dict?
    ensures var a := Prepare(sh, event, hexdigest).value.entries;
      && a["_index"] == (if "_index" in event.entries then event.entries["_index"] else Str(sh.index.value))
      && ("_id" in event.entries ==> a["_id"] == event.entries["_id"])
  {
    var enriched := Enrich(sh, event).value.entries;
    EnrichKeeps(sh, event, "_index");
    EnrichKeeps(sh, event, "_id");
    var m := Stamp(enriched, sh.index.value);
    assert Prepare(sh, event, hexdigest) == AddId(m, hexdigest);
  }

  /** Enrichment leaves a key other than the three it sets alone. */
  lemma {:induction false} EnrichKeeps(sh: Shipper, event: Value, k: string)
    requires Enrich(sh, event).Ok?
    requires k != "data_stream" && k != "event" && k != "tags"
    ensures k in Enrich(sh, event).value.entries <==> k in event.entries
    ensures k in event.entries ==> Enrich(sh, event).value.entries[k] == event.entries[k]
  {
  }

  /** What every buffered action looks like. */
  predicate Action(a: Value) {
    && a.Dict?
    && "_op_type" in a.entries && a.entries["_op_type"] == Str("create")
    && "_index" in a.entries
    && "_id" in a.entries
  }

  /** `send`: buffer the action and flush once the buffer reaches the batch
      size. */
  function Send(sh: Shipper, event: Value, hexdigest: string -> string, bulk: Bulk)
    : (r: Result<(Shipper, seq<Replay>), Error>)
    ensures r.Ok? ==> |r.value.0.actions| <= |sh.actions| + 1
    ensures r.Ok? && r.value.1 != [] ==> r.value.0.actions == []
  {
    var sh1 := sh.(replayArgs := sh.replayArgs["dataset" := Str(sh.dataset)]);
    var action :- Prepare(sh1, event, hexdigest);
    var actions := sh1.actions + [action];
    if |actions| < sh1.batchSize then Ok((sh1.(actions := actions), []))
    else
      var outcome := bulk(actions, sh1.bulkKwargs);
      var replays :- HandleOutcome(actions, outcome.errors, sh1.replayArgs, sh1.hasReplayHandler);
      Ok((sh1.(actions := []), replays))
  }

  /** `flush`: send whatever is buffered; the buffer is empty afterwards. */
  function Flush(sh: Shipper, bulk: Bulk): (r: Result<(Shipper, seq<Replay>), Error>)
    ensures r.Ok? ==> r.value.0 == sh.(actions := [])
    ensures |sh.actions| == 0 ==> r == Ok((sh, []))
    ensures |sh.actions| > 0 ==>
      var o := HandleOutcome(sh.actions, bulk(sh.actions, sh.bulkKwargs).errors, sh.replayArgs, sh.hasReplayHandler);
      && (r.Ok? <==> o.Ok?)
      && (r.Ok? ==> r.value.1 == o.value)
      && (r.Err? ==> r.error == o.error)
  {
    if |sh.actions| > 0 then
      var outcome := bulk(sh.actions, sh.bulkKwargs);
      var replays :- HandleOutcome(sh.actions, outcome.errors, sh.replayArgs, sh.hasReplayHandler);
      Ok((sh.(actions := []), replays))
    else Ok((sh.(actions := []), []))
  }

  /** The buffer either grows by the prepared action or, once it reaches the
      batch size, is sent and emptied; nothing but the buffer and the replay
      arguments' dataset changes. */
  lemma {:induction false} SendShape(sh: Shipper, event: Value, hexdigest: string -> string, bulk: Bulk)
    requires Send(sh, event, hexdigest, bulk).Ok?
    ensures var sh1 := sh.(replayArgs := sh.replayArgs["dataset" := Str(sh.dataset)]);
      var a := Prepare(sh1, event, hexdigest).value;
      var (sh', replays) := Send(sh, event, hexdigest, bulk).value;
      && Prepare(sh1, event, hexdigest).Ok?
      && sh' == sh1.(actions := sh'.actions)
      && (if |sh.actions| + 1 < sh.batchSize then sh'.actions == sh.actions + [a] && replays == []
          else sh'.actions == [])
    ensures var sh1 := sh.(replayArgs := sh.replayArgs["dataset" := Str(sh.dataset)]);
      var sent := sh.actions + [Prepare(sh1, event, hexdigest).value];
      var outcome := HandleOutcome(sent, bulk(sent, sh1.bulkKwargs).errors, sh1.replayArgs, sh1.hasReplayHandler);
      |sh.actions| + 1 >= sh.batchSize ==> outcome.Ok? && Send(sh, event, hexdigest, bulk).value.1 == outcome.value
  {
  }

  /** With a positive batch size the buffer stays below it. */
  lemma {:induction false} SendBelowBatch(sh: Shipper, event: Value, hexdigest: string -> string, bulk: Bulk)
    requires Send(sh, event, hexdigest, bulk).Ok?
    requires sh.batchSize > 0 && |sh.actions| < sh.batchSize
    ensures |Send(sh, event, hexdigest, bulk).value.0.actions| < sh.batchSize
  {
    SendShape(sh, event, hexdigest, bulk);
  }

  /** The buffer only ever holds prepared actions. */
  lemma {:induction false} SendKeepsActions(sh: Shipper, event: Value, hexdigest: string -> string, bulk: Bulk)
    requires Send(sh, event, hexdigest, bulk).Ok?
    requires forall i :: 0 <= i < |sh.actions| ==> Action(sh.actions[i])
    ensures var acts := Send(sh, event, hexdigest, bulk).value.0.actions;
      forall i :: 0 <= i < |acts| ==> Action(acts[i])
  {
    SendShape(sh, event, hexdigest, bulk);
    var sh1 := sh.(replayArgs := sh.replayArgs["dataset" := Str(sh.dataset)]);
    var a := Prepare(sh1, event, hexdigest).value;
    var acts := Send(sh, event, hexdigest, bulk).value.0.actions;
    assert Action(a);
    if |sh.actions| + 1 < sh.batchSize {
      assert forall i :: 0 <= i < |sh.actions| ==> acts[i] == sh.actions[i];
      assert acts[|sh.actions|] == a;
    }
  }

  // ----------------------------------------------------------------- outcome

  /** `[a for a in actions if a["_id"] == id]`, with Python's `==`. */
  function WithId(actions: seq<Value>, id: Value): (r: Result<seq<Value>, Error>)
    ensures r.Ok? <==> forall i :: 0 <= i < |actions| ==> actions[i].Dict? && "_id" in actions[i].entries
    ensures r.Ok? ==> forall a :: a in r.value <==> a in actions && PyEq(a.entries["_id"], id)
    ensures r.Ok? ==> |r.value| <= |actions|
  {
    if |actions| == 0 then Ok([])
    else
      var a := actions[0];
      var aid :- GetItem(a, "_id");
      var rest :- WithId(actions[1..], id);
      Ok(if PyEq(aid, id) then [a] + rest else rest)
  }

  /** `_handle_outcome`: every error must name exactly one buffered action,
      which is handed to the replay handler when one is set. The comprehension
      reads the first action's `_id` before the error's id, and reads neither
      when nothing is buffered. */
  function HandleOutcome(actions: seq<Value>, errors: seq<Value>, args: map<string, Value>, handler: bool)
    : (r: Result<seq<Replay>, Error>)
    ensures r.Ok? ==> |r.value| == if handler then |errors| else 0
  {
    if |errors| == 0 then Ok([])
    else if |actions| == 0 then Err(AssertionError)
    else
      var _ :- GetItem(actions[0], "_id");
      var id :- FailedId(errors[0]);
      var matching :- WithId(actions, id);
      if |matching| != 1 then Err(AssertionError)
      else
        var rest :- HandleOutcome(actions, errors[1..], args, handler);
        Ok((if handler then [Replay("elasticsearch", args, matching[0])] else []) + rest)
  }

  /** Python's `==` lets an action whose `_id` is `True` match an error
      reporting the id `1`. */
  lemma {:induction false} WithIdNumeric()
    ensures WithId([Dict(map["_id" := Bool(true)])], Int(1)) == Ok([Dict(map["_id" := Bool(true)])])
    ensures WithId([Dict(map["_id" := Str("1")])], Int(1)) == Ok([])
  {
    var a := Dict(map["_id" := Bool(true)]);
    assert [a][1..] == [];
    assert GetItem(a, "_id") == Ok(Bool(true));
    assert PyEq(Bool(true), Int(1));
    assert WithId([a][1..], Int(1)) == Ok([]);
    assert [a] + [] == [a];
    var b := Dict(map["_id" := Str("1")]);
    assert [b][1..] == [];
    assert GetItem(b, "_id") == Ok(Str("1"));
    assert WithId([b][1..], Int(1)) == Ok([]);
  }

  /** The failed action's id, as the error entry reports it. */
  function FailedId(error: Value): Result<Value, Error> {
    GetPath(error, ["create", "_id"])
  }

  /** The number of buffered actions carrying `id`. */
  function Matches(actions: seq<Value>, id: Value): nat
    requires forall i :: 0 <= i < |actions| ==> Action(actions[i])
  {
    if |actions| == 0 then 0
    else
      assert Action(actions[0]);
      (if PyEq(actions[0].entries["_id"], id) then 1 else 0) + Matches(actions[1..], id)
  }

  lemma {:induction false} WithIdCount(actions: seq<Value>, id: Value)
    requires forall i :: 0 <= i < |actions| ==> Action(actions[i])
    ensures WithId(actions, id).Ok? && |WithId(actions, id).value| == Matches(actions, id)
    decreases |actions|
  {
    if |actions| > 0 {
      WithIdCount(actions[1..], id);
    }
  }

  /** On a buffer of prepared actions and well-formed error entries the
      outcome is handled exactly when every error matches one action. */
  lemma {:induction false} HandleOutcomeOk(actions: seq<Value>, errors: seq<Value>,
                                           args: map<string, Value>, handler: bool)
    requires forall i :: 0 <= i < |actions| ==> Action(actions[i])
    requires forall i :: 0 <= i < |errors| ==> FailedId(errors[i]).Ok?
    ensures HandleOutcome(actions, errors, args, handler).Ok?
      <==> forall i :: 0 <= i < |errors| ==> Matches(actions, FailedId(errors[i]).value) == 1
    decreases |errors|
  {
    if |errors| > 0 {
      WithIdCount(actions, FailedId(errors[0]).value);
      HandleOutcomeOk(actions, errors[1..], args, handler);
      assert forall i :: 1 <= i < |errors| ==> errors[i] == errors[1..][i - 1];
    }
  }

  /** When a handler is set it is called once per error, in order, with the
      buffered action that carries the error's id. */
  lemma {:induction false} HandleOutcomeReplays(actions: seq<Value>, errors: seq<Value>,
                                                args: map<string, Value>)
    requires HandleOutcome(actions, errors, args, true).Ok?
    ensures forall i :: 0 <= i < |errors| ==>
      var rp := HandleOutcome(actions, errors, args, true).value[i];
      && rp.outputType == "elasticsearch" && rp.args == args && rp.action in actions
      && FailedId(errors[i]).Ok? && PyEq(rp.action.entries["_id"], FailedId(errors[i]).value)
    decreases |errors|
  {
    if |errors| > 0 {
      HandleOutcomeHead(actions, errors, args);
      var matching := WithId(actions, FailedId(errors[0]).value).value;
      assert matching[0] in matching;
      var rs := HandleOutcome(actions, errors, args, true).value;
      HandleOutcomeReplays(actions, errors[1..], args);
      assert forall i :: 1 <= i < |errors| ==> errors[i] == errors[1..][i - 1] && rs[i] == rs[1..][i - 1];
    }
  }

  /** A handled outcome with a handler starts with the replay of the first
      error's only matching action. */
  lemma {:induction false} HandleOutcomeHead(actions: seq<Value>, errors: seq<Value>, args: map<string, Value>)
    requires HandleOutcome(actions, errors, args, true).Ok? && |errors| > 0
    ensures FailedId(errors[0]).Ok? && WithId(actions, FailedId(errors[0]).value).Ok?
    ensures var matching := WithId(actions, FailedId(errors[0]).value).value;
      && |matching| == 1
      && HandleOutcome(actions, errors[1..], args, true).Ok?
      && HandleOutcome(actions, errors, args, true).value
         == [Replay("elasticsearch", args, matching[0])] + HandleOutcome(actions, errors[1..], args, true).value
  {
  }

  // ------------------------------------------------------- dataset discovery

  const GenericDataset: string := "generic"

  /** `discover_dataset`'s chain of substring tests on the S3 object key, in
      the order the code tries them. */
  function Classify(key: string): string {
    if key == "" then GenericDataset
    else if IsInfix("/CloudTrail/", key) || IsInfix("/CloudTrail-Digest/", key)
         || IsInfix("/CloudTrail-Insight/", key) then "aws.cloudtrail"
    else if IsInfix("exportedlogs", key) || IsInfix("awslogs", key) then "aws.cloudwatch_logs"
    else if IsInfix("/elasticloadbalancing/", key) then "aws.elb_logs"
    else if IsInfix("/network-firewall/", key) then "aws.firewall_logs"
    else if IsInfix("lambda", key) then "aws.lambda"
    else if IsInfix("/SMSUsageReports/", key) then "aws.sns"
    else if IsInfix("/StorageLens/", key) then "aws.s3_storage_lens"
    else if IsInfix("/vpcflowlogs/", key) then "aws.vpcflow"
    else if IsInfix("/WAFLogs/", key) then "aws.waf"
    else GenericDataset
  }

  /** A classification rule: any of the patterns selects the dataset. */
  datatype Rule = Rule(patterns: seq<string>, dataset: string)

  /** The rules as a priority-ordered table. */
  const DatasetRules: seq<Rule> := [
    Rule(["/CloudTrail/", "/CloudTrail-Digest/", "/CloudTrail-Insight/"], "aws.cloudtrail"),
    Rule(["exportedlogs", "awslogs"], "aws.cloudwatch_logs"),
    Rule(["/elasticloadbalancing/"], "aws.elb_logs"),
    Rule(["/network-firewall/"], "aws.firewall_logs"),
    Rule(["lambda"], "aws.lambda"),
    Rule(["/SMSUsageReports/"], "aws.sns"),
    Rule(["/StorageLens/"], "aws.s3_storage_lens"),
    Rule(["/vpcflowlogs/"], "aws.vpcflow"),
    Rule(["/WAFLogs/"], "aws.waf")
  ]

  predicate RuleMatches(r: Rule, key: string) {
    exists j :: 0 <= j < |r.patterns| && IsInfix(r.patterns[j], key)
  }

  /** The dataset of the first matching rule from position `i` on. */
  function FirstMatch(rules: seq<Rule>, key: string, i: nat): (d: string)
    requires i <= |rules|
    decreases |rules| - i
  {
    if i == |rules| then GenericDataset
    else if RuleMatches(rules[i], key) then rules[i].dataset
    else FirstMatch(rules, key, i + 1)
  }

  /** `FirstMatch` picks the earliest matching rule, and the default exactly
      when none matches. */
  lemma {:induction false} FirstMatchIsFirst(rules: seq<Rule>, key: string, i: nat)
    requires i <= |rules|
    requires forall k :: i <= k < |rules| ==> rules[k].dataset != GenericDataset
    ensures FirstMatch(rules, key, i) == GenericDataset
      <==> forall k :: i <= k < |rules| ==> !RuleMatches(rules[k], key)
    ensures FirstMatch(rules, key, i) != GenericDataset ==>
      exists k :: i <= k < |rules| && RuleMatches(rules[k], key) && FirstMatch(rules, key, i) == rules[k].dataset
        && forall m :: i <= m < k ==> !RuleMatches(rules[m], key)
    decreases |rules| - i
  {
    if i < |rules| {
      if RuleMatches(rules[i], key) {
        assert FirstMatch(rules, key, i) == rules[i].dataset;
      } else {
        FirstMatchIsFirst(rules, key, i + 1);
        if FirstMatch(rules, key, i) != GenericDataset {
          var k :| i + 1 <= k < |rules| && RuleMatches(rules[k], key) && FirstMatch(rules, key, i + 1) == rules[k].dataset
            && forall m :: i + 1 <= m < k ==> !RuleMatches(rules[m], key);
          assert forall m :: i <= m < k ==> !RuleMatches(rules[m], key);
        }
      }
    }
  }

  /** The chain in the code is the first match over the table. */
  lemma {:induction false} ClassifyIsFirstMatch(key: string)
    ensures Classify(key) == FirstMatch(DatasetRules, key, 0)
  {
    if key == "" {
      forall k | 0 <= k < |DatasetRules| ensures !RuleMatches(DatasetRules[k], key) {
        forall j | 0 <= j < |DatasetRules[k].patterns|
          ensures !IsInfix(DatasetRules[k].patterns[j], key)
        {
          NotInfixOfEmpty(DatasetRules[k].patterns[j]);
        }
      }
      FirstMatchIsFirst(DatasetRules, key, 0);
    } else {
      RuleMatchesUnfold(key);
    }
  }

  lemma {:induction false} NotInfixOfEmpty(p: string)
    requires |p| > 0
    ensures !IsInfix(p, "")
  {
  }

  lemma {:induction false} RuleMatchesAny(r: Rule, key: string)
    requires 1 <= |r.patterns| <= 3
    ensures RuleMatches(r, key) <==> (IsInfix(r.patterns[0], key)
                                      || (|r.patterns| > 1 && IsInfix(r.patterns[1], key))
                                      || (|r.patterns| > 2 && IsInfix(r.patterns[2], key)))
  {
  }

  lemma {:induction false} RuleMatchesUnfold(key: string)
    ensures RuleMatches(DatasetRules[0], key) <==> (IsInfix("/CloudTrail/", key)
      || IsInfix("/CloudTrail-Digest/", key) || IsInfix("/CloudTrail-Insight/", key))
    ensures RuleMatches(DatasetRules[1], key) <==> IsInfix("exportedlogs", key) || IsInfix("awslogs", key)
    ensures RuleMatches(DatasetRules[2], key) <==> IsInfix("/elasticloadbalancing/", key)
    ensures RuleMatches(DatasetRules[3], key) <==> IsInfix("/network-firewall/", key)
    ensures RuleMatches(DatasetRules[4], key) <==> IsInfix("lambda", key)
    ensures RuleMatches(DatasetRules[5], key) <==> IsInfix("/SMSUsageReports/", key)
    ensures RuleMatches(DatasetRules[6], key) <==> IsInfix("/StorageLens/", key)
    ensures RuleMatches(DatasetRules[7], key) <==> IsInfix("/vpcflowlogs/", key)
    ensures RuleMatches(DatasetRules[8], key) <==> IsInfix("/WAFLogs/", key)
  {
    RuleMatchesAny(DatasetRules[0], key);
    RuleMatchesAny(DatasetRules[1], key);
    RuleMatchesAny(DatasetRules[2], key);
    RuleMatchesAny(DatasetRules[3], key);
    RuleMatchesAny(DatasetRules[4], key);
    RuleMatchesAny(DatasetRules[5], key);
    RuleMatchesAny(DatasetRules[6], key);
    RuleMatchesAny(DatasetRules[7], key);
    RuleMatchesAny(DatasetRules[8], key);
  }

  /** `discover_dataset`, given the object key extracted from the event
      (`""` when there is none): the dataset is only classified while unset,
      and the index is always `logs-{dataset}-{namespace}`. */
  function DiscoverDataset(sh: Shipper, key: string): (sh': Shipper)
    ensures sh'.dataset == if sh.dataset == "" then FirstMatch(DatasetRules, key, 0) else sh.dataset
    ensures sh'.index == Some("logs-" + sh'.dataset + "-" + sh.namespace)
    ensures sh' == sh.(dataset := sh'.dataset, index := sh'.index)
  {
    ClassifyIsFirstMatch(key);
    var dataset := if sh.dataset == "" then Classify(key) else sh.dataset;
    sh.(dataset := dataset, index := Some("logs-" + dataset + "-" + sh.namespace))
  }
}

=== FILE: framing.dfy ===
/** The line and record framing decorators of the storage layer: `by_lines`,
    `multi_line` and the plain branch of `inflate`. A decorator turns the
    items its inner reader yields into new items; here both are sequences of
    `Record`s, and the inner reader is a parameter. */
module Framing {
  import opened Wrappers
  import opened Seqs
  import opened Bytes

  /** One yielded item: the data, its `[start, end)` offsets in the object, the
      newline that ended it, and the number of the expanded event it came from. */
  datatype Record = Record(data: bytes, start: int, end: int, newline: bytes, expandedEvent: Option<int>)

  /** The first record starts at `from` and every later record starts where the previous one ended. */
  predicate Contiguous(rs: seq<Record>, from: int) {
    && (|rs| > 0 ==> rs[0].start == from)
    && forall k :: 0 < k < |rs| ==> rs[k].start == rs[k - 1].end
  }

  /** Every record covers exactly its data and its newline. */
  predicate SpansMatch(rs: seq<Record>) {
    forall k :: 0 <= k < |rs| ==> rs[k].end - rs[k].start == |rs[k].data| + |rs[k].newline|
  }

  /** The three newline kinds `by_lines` reports. */
  predicate IsNewline(nl: bytes) {
    nl == CRLF || nl == [LF] || nl == []
  }

  /** The shape of everything `by_lines` yields. */
  predicate LineRecords(rs: seq<Record>, from: int) {
    && Contiguous(rs, from)
    && SpansMatch(rs)
    && forall k :: 0 <= k < |rs| ==>
         IsNewline(rs[k].newline) && NoBreak(rs[k].data) && rs[k].expandedEvent.None?
  }

  /** Where the next record would start: the last end offset, or `from` when nothing was yielded. */
  function EndOf(rs: seq<Record>, from: int): int {
    if |rs| == 0 then from else rs[|rs| - 1].end
  }

  /** The bytes the records stand for: each record's data followed by its newline. */
  function Flatten(rs: seq<Record>): bytes {
    if |rs| == 0 then [] else rs[0].data + rs[0].newline + Flatten(rs[1..])
  }

  /** Lines each followed by `nl`. */
  function Terminated(lines: seq<bytes>, nl: bytes): bytes {
    if |lines| == 0 then [] else lines[0] + nl + Terminated(lines[1..], nl)
  }

  // ---------------------------------------------------------------------------
  // Splitting a buffer into lines

  /** Index of the first separator in `s` at or after `j`, or `|s|` when there is none. */
  function ScanBreak(s: bytes, j: nat): (i: nat)
    requires j <= |s|
    ensures j <= i <= |s|
    ensures forall k :: j <= k < i ==> !IsBreak(s[k])
    ensures i < |s| ==> IsBreak(s[i])
    decreases |s| - j
  {
    if j == |s| || IsBreak(s[j]) then j else ScanBreak(s, j + 1)
  }

  /** Index of the first separator in `s`, or `|s|` when there is none. */
  function FirstBreak(s: bytes): (i: nat)
    ensures i <= |s|
    ensures NoBreak(s[..i])
    ensures forall k :: 0 <= k < i ==> !IsBreak(s[k])
    ensures i < |s| ==> IsBreak(s[i])
    ensures i == |s| <==> NoBreak(s)
  {
    var i := ScanBreak(s, 0);
    assert forall k :: 0 <= k < i ==> s[..i][k] == s[k];
    i
  }

  /** Length of the separator at `i`: two for `\r\n`, one otherwise. */
  function BreakLength(s: bytes, i: nat): nat
    requires i < |s|
  {
    if s[i] == CR && i + 1 < |s| && s[i + 1] == LF then 2 else 1
  }

  /** `str.splitlines()` over the separators of `IsBreak`: the lines without
      their separators, and no empty line after a final separator. */
  function SplitLines(s: bytes): (lines: seq<bytes>)
    ensures |lines| == 0 <==> |s| == 0
    ensures forall k :: 0 <= k < |lines| ==> NoBreak(lines[k])
    decreases |s|
  {
    if |s| == 0 then []
    else
      var i := FirstBreak(s);
      if i == |s| then [s]
      else [s[..i]] + SplitLines(s[i + BreakLength(s, i)..])
  }

  /** The newline `by_lines` assigns to every line cut from `buf`: `\r\n` when it
      occurs anywhere in the buffer, else `\n` when that occurs, else nothing. */
  function DetectNewline(buf: bytes): bytes {
    if IsInfix(CRLF, buf) then CRLF
    else if LF in buf then [LF]
    else []
  }

  /** The newline `by_lines` reads off the end of the last, unfinished line. */
  function TrailingNewline(buf: bytes): bytes {
    if EndsWith(buf, CRLF) then CRLF
    else if EndsWith(buf, [LF]) then [LF]
    else []
  }

  // ---------------------------------------------------------------------------
  // by_lines

  /** Yields `lines` with newline `nl` at contiguous offsets starting from `from`. */
  function EmitLines(lines: seq<bytes>, nl: bytes, from: int): (rs: seq<Record>)
    requires IsNewline(nl)
    requires forall k :: 0 <= k < |lines| ==> NoBreak(lines[k])
    ensures |rs| == |lines|
    ensures LineRecords(rs, from)
    ensures forall k :: 0 <= k < |rs| ==> rs[k].data == lines[k] && rs[k].newline == nl
    ensures Flatten(rs) == Terminated(lines, nl)
  {
    if |lines| == 0 then []
    else
      var r := Record(lines[0], from, from + |lines[0]| + |nl|, nl, None);
      var rest := EmitLines(lines[1..], nl, r.end);
      [r] + rest
  }

  /** What the unfinished line can look like between chunks: a line without
      separators, possibly followed by one newline. */
  predicate Pending(u: bytes) {
    || NoBreak(u)
    || (EndsWith(u, CRLF) && NoBreak(u[..|u| - 2]))
    || (EndsWith(u, [LF]) && NoBreak(u[..|u| - 1]))
  }

  /** The state `by_lines` keeps across chunks. */
  datatype LineBuffer = LineBuffer(endingOffset: int, unfinished: bytes)

  /** One chunk through `by_lines`: append it to the unfinished line, yield every
      complete line, and keep the last one (with its newline, if the buffer
      ended with the detected newline) for the next chunk. */
  function FeedChunk(st: LineBuffer, chunk: bytes): (r: (LineBuffer, seq<Record>))
    ensures LineRecords(r.1, st.endingOffset)
    ensures r.0.endingOffset == EndOf(r.1, st.endingOffset)
    ensures Pending(r.0.unfinished)
    ensures forall k :: 0 <= k < |r.1| ==> r.1[k].newline == DetectNewline(st.unfinished + chunk)
  {
    var buf := st.unfinished + chunk;
    var lines := SplitLines(buf);
    if |lines| == 0 then
      (LineBuffer(st.endingOffset, buf), [])
    else
      var nl := DetectNewline(buf);
      var last := lines[|lines| - 1];
      var keep := if EndsWith(buf, nl) then last + nl else last;
      assert keep[..|last|] == last;
      var out := EmitLines(lines[..|lines| - 1], nl, st.endingOffset);
      (LineBuffer(EndOf(out, st.endingOffset), keep), out)
  }

  /** Unfolds `FeedChunk` on a buffer that holds at least one line. */
  lemma {:induction false} FeedChunkShape(st: LineBuffer, chunk: bytes)
    requires |st.unfinished + chunk| > 0
    ensures var buf := st.unfinished + chunk;
      var ls := SplitLines(buf);
      var nl := DetectNewline(buf);
      var last := ls[|ls| - 1];
      && |ls| > 0
      && FeedChunk(st, chunk).1 == EmitLines(ls[..|ls| - 1], nl, st.endingOffset)
      && FeedChunk(st, chunk).0.unfinished == (if EndsWith(buf, nl) then last + nl else last)
  {
  }

  /** After the last chunk: the unfinished line, if any, is yielded with the
      newline it ends with, stripped of that newline's bytes. */
  function FinishLines(st: LineBuffer): (rs: seq<Record>)
    requires Pending(st.unfinished)
    ensures LineRecords(rs, st.endingOffset)
    ensures |rs| == (if |st.unfinished| > 0 then 1 else 0)
    ensures |rs| == 1 ==> rs[0].newline == TrailingNewline(st.unfinished)
    ensures Flatten(rs) == st.unfinished
  {
    if |st.unfinished| == 0 then []
    else
      var nl := TrailingNewline(st.unfinished);
      var line := RStrip(st.unfinished, CharSet(nl));
      PendingSplit(st.unfinished);
      var r := Record(line, st.endingOffset, st.endingOffset + |line| + |nl|, nl, None);
      assert Flatten([r]) == line + nl + Flatten([]);
      [r]
  }

  lemma {:induction false} PendingSplit(u: bytes)
    requires Pending(u) && |u| > 0
    ensures var nl := TrailingNewline(u);
      var line := RStrip(u, CharSet(nl));
      line + nl == u && NoBreak(line)
  {
    var nl := TrailingNewline(u);
    var n := TrailingIn(u, CharSet(nl));
    if EndsWith(u, CRLF) {
      assert NoBreak(u[..|u| - 2]);
      assert u[|u| - 2] == CR && u[|u| - 1] == LF;
      assert |u| > 2 ==> !IsBreak(u[..|u| - 2][|u| - 3]);
      assert n == 2;
    } else if EndsWith(u, [LF]) {
      assert NoBreak(u[..|u| - 1]);
      assert |u| > 1 ==> !IsBreak(u[..|u| - 1][|u| - 2]);
      assert n == 1;
    } else {
      assert NoBreak(u);
    }
  }

  function ByLinesFrom(st: LineBuffer, chunks: seq<bytes>): (rs: seq<Record>)
    requires Pending(st.unfinished)
    ensures LineRecords(rs, st.endingOffset)
    decreases |chunks|
  {
    if |chunks| == 0 then FinishLines(st)
    else
      var (st', out) := FeedChunk(st, chunks[0]);
      var rest := ByLinesFrom(st', chunks[1..]);
      LineRecordsAppend(out, rest, st.endingOffset);
      out + rest
  }

  /** `by_lines`: the chunks the inner reader yields, re-framed as lines whose
      offsets run contiguously from `rangeStart`. */
  function ByLines(chunks: seq<bytes>, rangeStart: int): (rs: seq<Record>)
    ensures LineRecords(rs, rangeStart)
  {
    ByLinesFrom(LineBuffer(rangeStart, []), chunks)
  }

  lemma {:induction false} LineRecordsAppend(a: seq<Record>, b: seq<Record>, from: int)
    requires LineRecords(a, from) && LineRecords(b, EndOf(a, from))
    ensures LineRecords(a + b, from)
    ensures EndOf(a + b, from) == EndOf(b, EndOf(a, from))
  {
    var ab := a + b;
    forall k | 0 < k < |ab|
      ensures ab[k].start == ab[k - 1].end
    {
      if k == |a| {
        assert ab[k] == b[0];
      } else if k > |a| {
        assert ab[k] == b[k - |a|] && ab[k - 1] == b[k - 1 - |a|];
      }
    }
  }
  // ---------------------------------------------------------------------------
  // multi_line and inflate

  /** What the multiline processor is fed: each inner item's data and newline. */
  datatype Feed = Feed(data: bytes, newline: bytes)

  /** What the multiline processor's `collect` yields: the collected data, the
      number of bytes it covers, and its newline. */
  datatype Collected = Collected(data: bytes, length: int, newline: bytes)

  function Feeds(inner: seq<Record>): (fs: seq<Feed>)
    ensures |fs| == |inner|
    ensures forall k :: 0 <= k < |fs| ==> fs[k] == Feed(inner[k].data, inner[k].newline)
  {
    if |inner| == 0 then [] else [Feed(inner[0].data, inner[0].newline)] + Feeds(inner[1..])
  }

  /** Re-frames collected items at offsets that accumulate their lengths from `from`. */
  function Accumulate(cs: seq<Collected>, from: int): (rs: seq<Record>)
    ensures |rs| == |cs|
    ensures Contiguous(rs, from)
    ensures forall k :: 0 <= k < |rs| ==>
      && rs[k].data == cs[k].data && rs[k].newline == cs[k].newline
      && rs[k].end - rs[k].start == cs[k].length && rs[k].expandedEvent.None?
  {
    if |cs| == 0 then []
    else
      var r := Record(cs[0].data, from, from + cs[0].length, cs[0].newline, None);
      [r] + Accumulate(cs[1..], r.end)
  }

  /** `multi_line`: without a processor the inner items pass through untouched;
      with one, the processor collects over the inner items' data and newlines
      and its items are yielded at offsets accumulated from `rangeStart`. */
  function MultiLine(processor: Option<seq<Feed> -> seq<Collected>>, inner: seq<Record>, rangeStart: int): (rs: seq<Record>)
    ensures processor.None? ==> rs == inner
    ensures processor.Some? ==>
      var cs := processor.value(Feeds(inner));
      && |rs| == |cs|
      && Contiguous(rs, rangeStart)
      && forall k :: 0 <= k < |rs| ==>
           && rs[k].data == cs[k].data && rs[k].newline == cs[k].newline
           && rs[k].end - rs[k].start == cs[k].length && rs[k].expandedEvent.None?
  {
    match processor
    case None => inner
    case Some(collect) => Accumulate(collect(Feeds(inner)), rangeStart)
  }

  /** The plain (not gzipped) branch of `inflate`: every inner item's data is
      passed on with zero offsets, no newline and no expanded event. */
  function InflatePlain(inner: seq<Record>): (rs: seq<Record>)
    ensures |rs| == |inner|
    ensures forall k :: 0 <= k < |rs| ==> rs[k] == Record(inner[k].data, 0, 0, [], None)
  {
    if |inner| == 0 then [] else [Record(inner[0].data, 0, 0, [], None)] + InflatePlain(inner[1..])
  }
  // ---------------------------------------------------------------------------
  // Offsets and bytes of framed records

  lemma {:induction false} FlattenAppend(a: seq<Record>, b: seq<Record>)
    ensures Flatten(a + b) == Flatten(a) + Flatten(b)
  {
    if |a| > 0 {
      assert (a + b)[1..] == a[1..] + b;
      FlattenAppend(a[1..], b);
    } else {
      assert a + b == b;
    }
  }

  /** Contiguous records whose spans match their contents end exactly as many
      bytes after `from` as they stand for. */
  lemma {:induction false} EndOfIsFlattenLength(rs: seq<Record>, from: int)
    requires Contiguous(rs, from) && SpansMatch(rs)
    ensures EndOf(rs, from) == from + |Flatten(rs)|
  {
    if |rs| > 0 {
      var tail := rs[1..];
      assert Contiguous(tail, rs[0].end) by {
        forall k | 0 < k < |tail| ensures tail[k].start == tail[k - 1].end {
          assert tail[k] == rs[k + 1] && tail[k - 1] == rs[k];
        }
      }
      assert SpansMatch(tail) by {
        forall k | 0 <= k < |tail| ensures tail[k].end - tail[k].start == |tail[k].data| + |tail[k].newline| {
          assert tail[k] == rs[k + 1];
        }
      }
      EndOfIsFlattenLength(tail, rs[0].end);
      if |tail| > 0 {
        assert rs[|rs| - 1] == tail[|tail| - 1];
      }
    }
  }
}

=== FILE: json_collector.dfy ===
/** The `json_collector` decorator: it buffers lines until the JSON parser
    accepts the buffer as one object, gives up after too many failed lines (the
    circuit breaker), and falls back to plain line framing for whatever is left.
    The parser and the event expander are parameters. */
module JsonCollector {
  import opened Wrappers
  import opened Seqs
  import opened Bytes
  import opened Framing

  /** The state the decorator keeps while it walks the inner records. */
  datatype State = State(
    startingOffset: int,
    endingOffset: int,
    unfinished: bytes,
    hasAnObjectStart: bool,
    isAJsonObject: bool,
    circuitBroken: bool,
    breaker: int)

  /** Failed lines tolerated before the collector stops trying. */
  const BreakerLimit: int := 1000

  /** The bytes `strip(b"\r\n")` removes. */
  const NewlineBytes: set<byte> := {CR, LF}

  /** The bytes `str.lstrip()` removes from ASCII text: `\t`..`\r`, `\x1c`..`\x1f` and space. */
  const SpaceBytes: set<byte> := {9, 10, 11, 12, 13, 28, 29, 30, 31, 32}

  /** The state the wrapper starts from: offsets at `rangeStart`, nothing buffered. */
  function Initial(rangeStart: int): State {
    State(0, rangeStart, [], false, false, false, 0)
  }

  /** `_handle_offset`: the next item starts where the last one ended and spans `skew` bytes. */
  function HandleOffset(st: State, skew: int): (r: State)
    ensures r.startingOffset == st.endingOffset
    ensures r.endingOffset - r.startingOffset == skew
    ensures r.(startingOffset := st.startingOffset, endingOffset := st.endingOffset) == st
  {
    st.(startingOffset := st.endingOffset, endingOffset := st.endingOffset + skew)
  }

  /** A buffer made only of `\r` and `\n` bytes. */
  predicate Blank(u: bytes) {
    forall j :: 0 <= j < |u| ==> u[j] in NewlineBytes
  }

  /** `strip(b"\r\n").strip(b"\n")` as written: the second strip never removes anything. */
  function Trim(b: bytes): (t: bytes)
    ensures t == Strip(b, NewlineBytes)
    ensures |t| == 0 <==> Blank(b)
  {
    var once := Strip(b, NewlineBytes);
    StripEnds(b, NewlineBytes);
    StripNoop(once, {LF});
    StripEmpty(b, NewlineBytes);
    Strip(once, {LF})
  }

  /** What `_collector` yields: the data and the parsed object, if any. */
  datatype Piece<J> = Piece(data: bytes, obj: Option<J>)

  /** The breaker after a successful parse of `buf`, whose last line ended with `newline`:
      it gives back one per line of the object beyond the first. */
  function Relieved(breaker: int, buf: bytes, newline: bytes): int {
    if newline != [] then breaker - (Count(buf, newline) - 1) else breaker - 1
  }

  /** `_collector`: append the line and its newline to the buffer and try to parse it. */
  function Collect<J>(st: State, data: bytes, newline: bytes, parse: bytes -> Option<J>): (State, Option<Piece<J>>)
  {
    var buf := st.unfinished + data + newline;
    var st1 := st.(unfinished := buf);
    var obj := parse(buf);
    if obj.Some? then
      var st2 := HandleOffset(st1.(unfinished := []), |buf|);
      (st2.(breaker := Relieved(st2.breaker, buf, newline), isAJsonObject := true), Some(Piece(Trim(buf), obj)))
    else
      var blank := |Trim(st1.unfinished)| == 0;
      if st1.isAJsonObject && blank then
        (HandleOffset(st1.(unfinished := []), |newline|), Some(Piece([], None)))
      else
        var st2 := st1.(breaker := st1.breaker + 1);
        (st2.(circuitBroken := if st2.breaker > BreakerLimit then true else st2.circuitBroken), None)
  }

  /** A buffer the parser accepts is yielded without its surrounding newlines,
      spanning exactly the buffered bytes; the buffer is emptied and the breaker
      relieved. */
  lemma {:induction false} CollectParsed<J>(st: State, data: bytes, newline: bytes, parse: bytes -> Option<J>)
    requires parse(st.unfinished + data + newline).Some?
    ensures var buf := st.unfinished + data + newline;
      var (st', piece) := Collect(st, data, newline, parse);
      && piece == Some(Piece(Strip(buf, NewlineBytes), parse(buf)))
      && st'.startingOffset == st.endingOffset && st'.endingOffset == st.endingOffset + |buf|
      && st'.unfinished == [] && st'.isAJsonObject
      && st'.breaker == Relieved(st.breaker, buf, newline)
      && st'.hasAnObjectStart == st.hasAnObjectStart && st'.circuitBroken == st.circuitBroken
  {
  }

  /** Once an object has been seen, a buffer of nothing but newlines is yielded as
      empty data spanning the line's newline, and the buffer is emptied. */
  lemma {:induction false} CollectBlank<J>(st: State, data: bytes, newline: bytes, parse: bytes -> Option<J>)
    requires var buf := st.unfinished + data + newline;
      parse(buf).None? && st.isAJsonObject && Blank(buf)
    ensures var (st', piece) := Collect(st, data, newline, parse);
      && piece == Some(Piece([], None))
      && st' == st.(startingOffset := st.endingOffset, endingOffset := st.endingOffset + |newline|, unfinished := [])
  {
  }

  /** Any other buffer the parser rejects is kept, and costs the breaker one; the
      circuit breaks once the breaker goes over the limit. */
  lemma {:induction false} CollectBuffered<J>(st: State, data: bytes, newline: bytes, parse: bytes -> Option<J>)
    requires var buf := st.unfinished + data + newline;
      parse(buf).None? && !(st.isAJsonObject && Blank(buf))
    ensures var buf := st.unfinished + data + newline;
      var (st', piece) := Collect(st, data, newline, parse);
      && piece.None?
      && st' == st.(unfinished := buf, breaker := st.breaker + 1,
                    circuitBroken := st.circuitBroken || st.breaker + 1 > BreakerLimit)
  {
  }

  // ---------------------------------------------------------------------------
  // Falling back to lines

  /** `_by_lines_fallback` after the buffer has been framed into `lines`: each line
      moves the offsets on by its length and newline, empties the buffer and drops
      the object start. */
  function FallbackFrom(st: State, lines: seq<Record>): (r: (State, seq<Record>))
    ensures |r.1| == |lines|
    ensures r.0.(startingOffset := st.startingOffset, endingOffset := st.endingOffset,
                 unfinished := st.unfinished, hasAnObjectStart := st.hasAnObjectStart) == st
    ensures |lines| == 0 ==> r.0 == st
    ensures |lines| > 0 ==> r.0.unfinished == [] && !r.0.hasAnObjectStart
    decreases |lines|
  {
    if |lines| == 0 then (st, [])
    else
      var l := lines[0];
      var st1 := HandleOffset(st, |l.data| + |l.newline|).(unfinished := [], hasAnObjectStart := false);
      var (st2, rest) := FallbackFrom(st1, lines[1..]);
      (st2, [Record(l.data, st1.startingOffset, st1.endingOffset, l.newline, None)] + rest)
  }

  /** `_by_lines_fallback`: the buffer is framed by `by_lines` from the current
      ending offset, and the lines are yielded at the offsets the state moves through. */
  function Fallback(st: State): (r: (State, seq<Record>))
    ensures r.1 == ByLines([st.unfinished], st.endingOffset)
    ensures r.0.endingOffset == EndOf(r.1, st.endingOffset)
    ensures |r.1| == 0 ==> r.0 == st
    ensures |r.1| > 0 ==> r.0.unfinished == [] && !r.0.hasAnObjectStart
    ensures r.0.isAJsonObject == st.isAJsonObject && r.0.circuitBroken == st.circuitBroken
    ensures r.0.breaker == st.breaker
  {
    var lines := ByLines([st.unfinished], st.endingOffset);
    FallbackReframes(st, lines);
    FallbackFrom(st, lines)
  }

  /** Re-yielding `by_lines` records at the offsets the state moves through gives the
      same records back, and leaves the ending offset where they end. */
  lemma {:induction false} FallbackReframes(st: State, lines: seq<Record>)
    requires LineRecords(lines, st.endingOffset)
    ensures FallbackFrom(st, lines).1 == lines
    ensures FallbackFrom(st, lines).0.endingOffset == EndOf(lines, st.endingOffset)
    decreases |lines|
  {
    if |lines| > 0 {
      var l := lines[0];
      var st1 := HandleOffset(st, |l.data| + |l.newline|).(unfinished := [], hasAnObjectStart := false);
      var tail := lines[1..];
      LineRecordsTail(lines, st.endingOffset);
      assert st1.endingOffset == l.end;
      FallbackReframes(st1, tail);
      assert Record(l.data, st1.startingOffset, st1.endingOffset, l.newline, None) == l;
      assert lines == [l] + tail;
    }
  }

  /** The records after the first are line records from the first one's end, and
      end where the whole run ends. */
  lemma {:induction false} LineRecordsTail(rs: seq<Record>, from: int)
    requires LineRecords(rs, from) && |rs| > 0
    ensures LineRecords(rs[1..], rs[0].end)
    ensures EndOf(rs[1..], rs[0].end) == EndOf(rs, from)
  {
    var tail := rs[1..];
    forall k | 0 < k < |tail| ensures tail[k].start == tail[k - 1].end {
      assert tail[k] == rs[k + 1] && tail[k - 1] == rs[k];
    }
    forall k | 0 <= k < |tail|
      ensures tail[k].end - tail[k].start == |tail[k].data| + |tail[k].newline|
      ensures IsNewline(tail[k].newline) && NoBreak(tail[k].data) && tail[k].expandedEvent.None?
    {
      assert tail[k] == rs[k + 1];
    }
    if |tail| > 0 {
      assert rs[|rs| - 1] == tail[|tail| - 1];
    }
  }

  // ---------------------------------------------------------------------------
  // The main loop

  /** One event the expander yields: its data, offsets and event number. */
  datatype Expanded = Expanded(event: bytes, start: int, end: int, n: Option<int>)

  /** The event-list expander: given the collected data, the parsed object and the
      collected span, the events to yield instead. */
  type Expander<!J> = (bytes, Option<J>, int, int) -> seq<Expanded>

  /** Whether the line, after `lstrip()`, starts with `{`. */
  predicate StartsObject(data: bytes) {
    var t := LStrip(data, SpaceBytes);
    |t| > 0 && t[0] == OpenBrace
  }

  /** What is yielded for one collected piece: the piece at the collected span, or
      the events the expander makes of it, each with the line's newline. */
  function Emit<J>(expander: Option<Expander<J>>, p: Piece<J>, st: State, newline: bytes): (rs: seq<Record>)
    ensures expander.None? ==> rs == [Record(p.data, st.startingOffset, st.endingOffset, newline, None)]
    ensures expander.Some? ==>
      var es := expander.value(p.data, p.obj, st.startingOffset, st.endingOffset);
      && |rs| == |es|
      && forall k :: 0 <= k < |rs| ==> rs[k] == Record(es[k].event, es[k].start, es[k].end, newline, es[k].n)
  {
    match expander
    case None => [Record(p.data, st.startingOffset, st.endingOffset, newline, None)]
    case Some(expand) => Expand(expand(p.data, p.obj, st.startingOffset, st.endingOffset), newline)
  }

  function Expand(es: seq<Expanded>, newline: bytes): (rs: seq<Record>)
    ensures |rs| == |es|
    ensures forall k :: 0 <= k < |rs| ==> rs[k] == Record(es[k].event, es[k].start, es[k].end, newline, es[k].n)
  {
    if |es| == 0 then []
    else [Record(es[0].event, es[0].start, es[0].end, newline, es[0].n)] + Expand(es[1..], newline)
  }

  /** One inner record through the loop: until an object start is seen lines are
      forwarded as they are; from then on they go through the collector, and a
      broken circuit flushes the buffer through the line fallback. */
  function Step<J>(st: State, rec: Record, parse: bytes -> Option<J>, expander: Option<Expander<J>>): (State, seq<Record>)
  {
    var st1 := if !st.hasAnObjectStart && StartsObject(rec.data) then st.(hasAnObjectStart := true) else st;
    if !st1.hasAnObjectStart then
      (HandleOffset(st1, |rec.data| + |rec.newline|), [Record(rec.data, rec.start, rec.end, rec.newline, None)])
    else
      var (st2, piece) := Collect(st1, rec.data, rec.newline, parse);
      var out := if piece.Some? then Emit(expander, piece.value, st2, rec.newline) else [];
      if st2.circuitBroken then
        var (st3, fb) := Fallback(st2);
        (st3, out + fb)
      else
        (st2, out)
  }

  /** The loop over all inner records. */
  function Run<J>(st: State, inner: seq<Record>, parse: bytes -> Option<J>, expander: Option<Expander<J>>): (State, seq<Record>)
    decreases |inner|
  {
    if |inner| == 0 then (st, [])
    else
      var (st1, out) := Step(st, inner[0], parse, expander);
      var (st2, rest) := Run(st1, inner[1..], parse, expander);
      (st2, out + rest)
  }

  /** How the storage is configured for the collector. */
  datatype Settings<!J> = Settings(jsonContentType: string, hasMultilineProcessor: bool, expander: Option<Expander<J>>)

  /** Why the wrapper can fail: single-object content with no inner record at all. */
  datatype CollectorError = NoRecords

  /** The data of every record. */
  function Datas(rs: seq<Record>): (ds: seq<bytes>)
    ensures |ds| == |rs|
    ensures forall k :: 0 <= k < |rs| ==> ds[k] == rs[k].data
  {
    if |rs| == 0 then [] else [rs[0].data] + Datas(rs[1..])
  }

  /** Every record with its expanded-event number dropped. */
  function Forward(rs: seq<Record>): (out: seq<Record>)
    ensures |out| == |rs|
    ensures forall k :: 0 <= k < |rs| ==> out[k] == rs[k].(expandedEvent := None)
  {
    if |rs| == 0 then [] else [rs[0].(expandedEvent := None)] + Forward(rs[1..])
  }

  /** The wrapper `json_collector` puts around the inner reader. */
  function Collector<J>(settings: Settings<J>, parse: bytes -> Option<J>, inner: seq<Record>, rangeStart: int): Result<seq<Record>, CollectorError>
  {
    if settings.jsonContentType == "disabled" || settings.hasMultilineProcessor then
      Ok(Forward(inner))
    else if settings.jsonContentType == "single" && settings.expander.None? then
      if |inner| == 0 then Err(NoRecords)
      else Ok([Whole(inner)] + Leftover(Initial(rangeStart)))
    else
      var (st, out) := Run(Initial(rangeStart), inner, parse, settings.expander);
      Ok(out + Leftover(st))
  }

  /** After the loop: unless the content turned out to be JSON, whatever is still
      buffered goes through the line fallback. */
  function Leftover(st: State): seq<Record> {
    if !st.isAJsonObject then Fallback(st).1 else []
  }

  /** Single-object content: every record's data joined by the first record's newline,
      spanning from the first record's start to the last one's end. */
  function Whole(inner: seq<Record>): Record
    requires |inner| > 0
  {
    Record(Join(inner[0].newline, Datas(inner)), inner[0].start, inner[|inner| - 1].end, inner[0].newline, None)
  }

  // ---------------------------------------------------------------------------
  // What the wrapper yields

  /** With JSON collection disabled, or a multiline processor configured, every inner
      record is forwarded unchanged except that its expanded-event number is dropped. */
  lemma {:induction false} CollectorForwards<J>(settings: Settings<J>, parse: bytes -> Option<J>, inner: seq<Record>, rangeStart: int)
    requires settings.jsonContentType == "disabled" || settings.hasMultilineProcessor
    ensures Collector(settings, parse, inner, rangeStart).Ok?
    ensures var rs := Collector(settings, parse, inner, rangeStart).value;
      && |rs| == |inner|
      && forall k :: 0 <= k < |rs| ==>
           && rs[k].data == inner[k].data && rs[k].start == inner[k].start && rs[k].end == inner[k].end
           && rs[k].newline == inner[k].newline && rs[k].expandedEvent.None?
  {
  }

  /** `by_lines` over an empty body yields nothing. */
  lemma {:induction false} ByLinesOfNothing(rangeStart: int)
    ensures ByLines([[]], rangeStart) == []
  {
    var st := LineBuffer(rangeStart, []);
    var chunks: seq<bytes> := [[]];
    assert SplitLines(st.unfinished + chunks[0]) == [];
    assert chunks[1..] == [];
  }

  /** Single-object content without an expander: no inner record is an error (the
      source indexes the first one), otherwise exactly one record is yielded, holding
      every record's data joined by the first record's newline and spanning from the
      first record's start to the last record's end. */
  lemma {:induction false} CollectorSingle<J>(settings: Settings<J>, parse: bytes -> Option<J>, inner: seq<Record>, rangeStart: int)
    requires settings.jsonContentType == "single" && !settings.hasMultilineProcessor && settings.expander.None?
    ensures Collector(settings, parse, inner, rangeStart).Err? <==> |inner| == 0
    ensures |inner| > 0 ==>
      var nl := inner[0].newline;
      Collector(settings, parse, inner, rangeStart)
        == Ok([Record(Join(nl, Datas(inner)), inner[0].start, inner[|inner| - 1].end, nl, None)])
  {
    NothingLeftAtStart(rangeStart);
    if |inner| > 0 {
      assert [Whole(inner)] + [] == [Whole(inner)];
    }
  }

  /** Before any record the buffer is empty, so the final fallback yields nothing. */
  lemma {:induction false} NothingLeftAtStart(rangeStart: int)
    ensures Leftover(Initial(rangeStart)) == []
  {
    var st := Initial(rangeStart);
    assert [st.unfinished] == [[]];
    ByLinesOfNothing(rangeStart);
  }

  // ---------------------------------------------------------------------------
  // The main loop on text that never starts an object

  /** Before an object start, a line that does not start one is forwarded with its
      own offsets while the state's offsets move past it. */
  lemma {:induction false} StepForwards<J>(st: State, rec: Record, parse: bytes -> Option<J>, expander: Option<Expander<J>>)
    requires !st.hasAnObjectStart && !StartsObject(rec.data)
    ensures Step(st, rec, parse, expander)
         == (HandleOffset(st, |rec.data| + |rec.newline|), [rec.(expandedEvent := None)])
  {
  }

  /** A run of lines none of which starts an object is forwarded unchanged, and
      only the offsets of the state move. */
  lemma {:induction false} RunForwards<J>(st: State, inner: seq<Record>, parse: bytes -> Option<J>, expander: Option<Expander<J>>)
    requires !st.hasAnObjectStart
    requires forall k :: 0 <= k < |inner| ==> !StartsObject(inner[k].data)
    ensures Run(st, inner, parse, expander).1 == Forward(inner)
    ensures var st' := Run(st, inner, parse, expander).0;
      st' == st.(startingOffset := st'.startingOffset, endingOffset := st'.endingOffset)
    decreases |inner|
  {
    if |inner| > 0 {
      StepForwards(st, inner[0], parse, expander);
      var st1 := HandleOffset(st, |inner[0].data| + |inner[0].newline|);
      RunForwards(st1, inner[1..], parse, expander);
    }
  }

  /** When JSON collection is on but no line starts with `{`, the collector
      yields the inner records unchanged: the final fallback finds nothing
      buffered. */
  lemma {:induction false} CollectorPlainText<J>(settings: Settings<J>, parse: bytes -> Option<J>, inner: seq<Record>, rangeStart: int)
    requires settings.jsonContentType != "disabled" && !settings.hasMultilineProcessor
    requires !(settings.jsonContentType == "single" && settings.expander.None?)
    requires forall k :: 0 <= k < |inner| ==> !StartsObject(inner[k].data)
    ensures Collector(settings, parse, inner, rangeStart) == Ok(Forward(inner))
  {
    var st := Initial(rangeStart);
    RunForwards(st, inner, parse, settings.expander);
    var st' := Run(st, inner, parse, settings.expander).0;
    assert [st'.unfinished] == [[]];
    ByLinesOfNothing(st'.endingOffset);
    assert Leftover(st') == [];
    assert Forward(inner) + [] == Forward(inner);
  }

  // ---------------------------------------------------------------------------
  // Flags that never reset

  /** One step never clears the JSON flag or mends a broken circuit. */
  lemma {:induction false} StepMonotone<J>(st: State, rec: Record, parse: bytes -> Option<J>, expander: Option<Expander<J>>)
    ensures var st' := Step(st, rec, parse, expander).0;
      && (st.isAJsonObject ==> st'.isAJsonObject)
      && (st.circuitBroken ==> st'.circuitBroken)
  {
  }

  /** Once the content has been seen to be JSON, or the circuit has broken, it
      stays so for the rest of the object. */
  lemma {:induction false} RunMonotone<J>(st: State, inner: seq<Record>, parse: bytes -> Option<J>, expander: Option<Expander<J>>)
    ensures var st' := Run(st, inner, parse, expander).0;
      && (st.isAJsonObject ==> st'.isAJsonObject)
      && (st.circuitBroken ==> st'.circuitBroken)
    decreases |inner|
  {
    if |inner| > 0 {
      StepMonotone(st, inner[0], parse, expander);
      RunMonotone(Step(st, inner[0], parse, expander).0, inner[1..], parse, expander);
    }
  }
}

=== FILE: line_roundtrip.dfy ===
/** Round trip of `by_lines` on text whose line breaks are all one kind: the
    yielded lines and newlines put back together give the input, and the
    offsets end exactly where the input ends. */
module LineRoundTrip {
  import opened Seqs
  import opened Bytes
  import opened Framing

  /** The separator at position `j` of `s` is (part of) an occurrence of `nl`. */
  predicate UniformAt(s: bytes, nl: bytes, j: int)
    requires 0 <= j < |s|
  {
    if nl == [LF] then
      IsBreak(s[j]) ==> s[j] == LF
    else
      && (IsBreak(s[j]) ==> s[j] == CR || s[j] == LF)
      && (s[j] == CR ==> j + 1 < |s| && s[j + 1] == LF)
      && (s[j] == LF ==> 0 < j && s[j - 1] == CR)
  }

  /** Every line break in `s` is `nl`, which is `\n` or `\r\n`. */
  predicate Uniform(s: bytes, nl: bytes) {
    && (nl == [LF] || nl == CRLF)
    && forall j :: 0 <= j < |s| ==> UniformAt(s, nl, j)
  }

  lemma {:induction false} SplitNoBreak(s: bytes)
    requires |s| > 0 && NoBreak(s)
    ensures SplitLines(s) == [s]
  {
  }

  /** Text without separators does not end with a newline. */
  lemma {:induction false} NoBreakNotTerminated(s: bytes, nl: bytes)
    requires NoBreak(s) && (nl == [LF] || nl == CRLF)
    ensures !EndsWith(s, nl)
  {
    assert |s| > 0 ==> !IsBreak(s[|s| - 1]);
  }

  /** In uniform text the first separator is a whole occurrence of `nl`. */
  lemma {:induction false} FirstSeparator(s: bytes, nl: bytes)
    requires Uniform(s, nl) && FirstBreak(s) < |s|
    ensures var i := FirstBreak(s);
      i + |nl| <= |s| && BreakLength(s, i) == |nl| && s[i..i + |nl|] == nl
  {
    var i := FirstBreak(s);
    assert UniformAt(s, nl, i);
    assert 0 < i ==> !IsBreak(s[..i][i - 1]);
  }

  lemma {:induction false} UniformSuffix(s: bytes, nl: bytes, i: nat)
    requires Uniform(s, nl)
    requires i + |nl| <= |s| && s[i..i + |nl|] == nl
    ensures Uniform(s[i + |nl|..], nl)
  {
    var rest := s[i + |nl|..];
    assert s[i + |nl| - 1] == LF;
    forall j | 0 <= j < |rest| ensures UniformAt(rest, nl, j) {
      assert rest[j] == s[j + i + |nl|];
      assert UniformAt(s, nl, j + i + |nl|);
      assert j > 0 ==> rest[j - 1] == s[j - 1 + i + |nl|];
      assert j + 1 < |rest| ==> rest[j + 1] == s[j + 1 + i + |nl|];
    }
  }

  /** Whether text ends with `nl` is decided by its last non-empty piece. */
  lemma {:induction false} EndsWithAfter(pre: bytes, nl: bytes, rest: bytes)
    requires |rest| > 0 && (nl == [LF] || nl == CRLF)
    ensures EndsWith(pre + nl + rest, nl) == EndsWith(rest, nl)
  {
    var s := pre + nl + rest;
    if |rest| >= |nl| {
      assert s[|s| - |nl|..] == rest[|rest| - |nl|..] by {
        assert forall k :: |pre| + |nl| <= k < |s| ==> s[k] == rest[k - |pre| - |nl|];
      }
    } else {
      EndsWithShortRest(pre, rest);
    }
  }

  lemma {:induction false} EndsWithShortRest(pre: bytes, rest: bytes)
    requires |rest| == 1
    ensures !EndsWith(pre + CRLF + rest, CRLF)
  {
    var s := pre + CRLF + rest;
    assert s[|s| - 2] == LF;
  }

  /** `s` is the lines `ls` joined by `nl`, followed by `nl` again exactly when
      `s` ends with it; the last line is empty only when `s` ends with `nl`. */
  predicate Shape(s: bytes, ls: seq<bytes>, nl: bytes) {
    && |ls| > 0
    && s == Unsplit(ls, nl, if EndsWith(s, nl) then nl else [])
    && (|ls[|ls| - 1]| == 0 ==> EndsWith(s, nl))
  }

  /** Lines joined by `nl`, the last one followed by `tail`. */
  function Unsplit(ls: seq<bytes>, nl: bytes, tail: bytes): bytes
    requires |ls| > 0
    decreases |ls|
  {
    if |ls| == 1 then ls[0] + tail else ls[0] + nl + Unsplit(ls[1..], nl, tail)
  }

  /** `SplitLines` on uniform text: the lines before the last, each followed by
      `nl`, then the last line, then `nl` again exactly when the text ends with it. */
  lemma {:induction false} SplitUniform(s: bytes, nl: bytes)
    requires Uniform(s, nl) && |s| > 0
    ensures Shape(s, SplitLines(s), nl)
    decreases |s|
  {
    var i := FirstBreak(s);
    if i == |s| {
      SplitNoBreak(s);
      ShapeBare(s, nl);
    } else {
      FirstSeparator(s, nl);
      var pre, rest := s[..i], s[i + |nl|..];
      Decompose(s, i, nl);
      SplitLinesCons(pre, nl, rest);
      if i + |nl| == |s| {
        assert rest == [];
        ShapeLast(pre, nl);
      } else {
        UniformSuffix(s, nl, i);
        SplitUniform(rest, nl);
        ShapeCons(pre, nl, rest, SplitLines(rest));
      }
    }
  }

  lemma {:induction false} Decompose(s: bytes, i: nat, nl: bytes)
    requires i + |nl| <= |s| && s[i..i + |nl|] == nl
    ensures s == s[..i] + nl + s[i + |nl|..]
  {
  }

  /** The first separator of `pre + x` is at `|pre|` when `pre` has none and `x` starts with one. */
  lemma {:induction false} FirstBreakAt(pre: bytes, x: bytes)
    requires NoBreak(pre) && |x| > 0 && IsBreak(x[0])
    ensures FirstBreak(pre + x) == |pre|
  {
    var s := pre + x;
    assert forall k :: 0 <= k < |pre| ==> s[k] == pre[k];
    assert s[|pre|] == x[0];
  }

  /** A line, a newline and the rest split into that line and the rest's lines. */
  lemma {:induction false} SplitLinesCons(pre: bytes, nl: bytes, rest: bytes)
    requires NoBreak(pre) && (nl == [LF] || nl == CRLF)
    ensures SplitLines(pre + nl + rest) == [pre] + SplitLines(rest)
  {
    var s := pre + nl + rest;
    FirstBreakAt(pre, nl + rest);
    assert s == pre + (nl + rest);
    assert s[|pre|] == nl[0];
    assert nl == CRLF ==> s[|pre| + 1] == LF;
    assert s[..|pre|] == pre;
    assert s[|pre| + |nl|..] == rest;
  }

  lemma {:induction false} ShapeBare(s: bytes, nl: bytes)
    requires |s| > 0 && NoBreak(s) && (nl == [LF] || nl == CRLF)
    ensures Shape(s, [s], nl)
  {
    NoBreakNotTerminated(s, nl);
    assert s == s + [];
  }

  lemma {:induction false} ShapeLast(pre: bytes, nl: bytes)
    requires nl == [LF] || nl == CRLF
    ensures Shape(pre + nl, [pre], nl)
  {
    assert EndsWith(pre + nl, nl) by {
      assert (pre + nl)[|pre|..] == nl;
    }
  }

  lemma {:induction false} ShapeCons(pre: bytes, nl: bytes, rest: bytes, ls: seq<bytes>)
    requires nl == [LF] || nl == CRLF
    requires |rest| > 0 && Shape(rest, ls, nl)
    ensures Shape(pre + nl + rest, [pre] + ls, nl)
  {
    EndsWithAfter(pre, nl, rest);
    var e := if EndsWith(rest, nl) then nl else [];
    assert Unsplit([pre] + ls, nl, e) == pre + nl + Unsplit(ls, nl, e) by {
      assert ([pre] + ls)[0] == pre && ([pre] + ls)[1..] == ls;
    }
    assert ([pre] + ls)[|ls|] == ls[|ls| - 1];
  }

  /** Joining lines by `nl` is terminating all but the last one with `nl`. */
  lemma {:induction false} UnsplitTerminated(ls: seq<bytes>, nl: bytes, tail: bytes)
    requires |ls| > 0
    ensures Unsplit(ls, nl, tail) == Terminated(ls[..|ls| - 1], nl) + ls[|ls| - 1] + tail
    decreases |ls|
  {
    if |ls| == 1 {
      assert ls[..0] == [];
    } else {
      var tl := ls[1..];
      UnsplitTerminated(tl, nl, tail);
      var t' := Terminated(tl[..|tl| - 1], nl);
      assert Terminated(ls[..|ls| - 1], nl) == ls[0] + nl + t' by {
        assert ls[..|ls| - 1][0] == ls[0] && ls[..|ls| - 1][1..] == tl[..|tl| - 1];
      }
      assert tl[|tl| - 1] == ls[|ls| - 1];
      AppendAssoc(ls[0] + nl, t' + tl[|tl| - 1], tail);
      AppendAssoc(ls[0] + nl, t', tl[|tl| - 1]);
    }
  }

  lemma {:induction false} AppendAssoc(a: bytes, b: bytes, c: bytes)
    ensures a + (b + c) == a + b + c
  {
  }

  /** On uniform text the newline `by_lines` detects is `nl` itself, unless the
      text holds no separator at all. */
  lemma {:induction false} DetectUniform(s: bytes, nl: bytes)
    requires Uniform(s, nl)
    ensures DetectNewline(s) == nl || (NoBreak(s) && DetectNewline(s) == [])
  {
    if !NoBreak(s) {
      var j :| 0 <= j < |s| && IsBreak(s[j]);
      assert UniformAt(s, nl, j);
      if nl == [LF] {
        assert LF in s;
        forall i | 0 <= i <= |s| ensures !StartsWith(s[i..], CRLF) {
          assert i < |s| ==> s[i..][0] == s[i] && UniformAt(s, nl, i);
        }
      } else {
        var c := if s[j] == CR then j else j - 1;
        assert s[c..][..2] == CRLF;
      }
    } else {
      forall j | 0 <= j < |s| ensures s[j] != LF && s[j] != CR {
        assert !IsBreak(s[j]);
      }
      forall i | 0 <= i <= |s| ensures !StartsWith(s[i..], CRLF) {
        assert i < |s| ==> s[i..][0] == s[i];
      }
    }
  }

  /** The newline `by_lines` reads off a line followed by `nl` is `nl`. */
  lemma {:induction false} TrailingOfTerminated(last: bytes, nl: bytes)
    requires NoBreak(last) && (nl == [LF] || nl == CRLF)
    ensures TrailingNewline(last + nl) == nl
  {
    var u := last + nl;
    assert u[|u| - |nl|..] == nl;
    assert |last| > 0 ==> !IsBreak(last[|last| - 1]);
    assert |u| >= 2 && nl == [LF] ==> u[|u| - 2] == last[|last| - 1];
  }

  /** A line without separators has no trailing newline. */
  lemma {:induction false} TrailingOfBare(last: bytes)
    requires NoBreak(last)
    ensures TrailingNewline(last) == []
  {
    assert |last| > 0 ==> !IsBreak(last[|last| - 1]);
  }

  /** The first chunk through `by_lines`, when it is uniform: the yielded lines
      and the kept unfinished line together are the chunk. */
  lemma {:induction false} FeedUniform(s: bytes, nl: bytes, rangeStart: int)
    requires Uniform(s, nl)
    ensures var r := FeedChunk(LineBuffer(rangeStart, []), s);
      && Flatten(r.1) + r.0.unfinished == s
      && (forall k :: 0 <= k < |r.1| ==> r.1[k].newline == nl)
      && (|s| > 0 ==> |r.0.unfinished| > 0)
      && TrailingNewline(r.0.unfinished) == (if EndsWith(s, nl) then nl else [])
  {
    var st := LineBuffer(rangeStart, []);
    assert st.unfinished + s == s;
    if |s| == 0 {
      assert SplitLines(s) == [];
    } else {
      DetectUniform(s, nl);
      if DetectNewline(s) == [] {
        FeedBare(s, nl, rangeStart);
      } else {
        FeedSplit(s, nl, rangeStart);
      }
    }
  }

  /** A chunk without separators is kept whole as the unfinished line. */
  lemma {:induction false} FeedBare(s: bytes, nl: bytes, rangeStart: int)
    requires |s| > 0 && NoBreak(s) && (nl == [LF] || nl == CRLF)
    ensures var r := FeedChunk(LineBuffer(rangeStart, []), s);
      && r.1 == [] && r.0.unfinished == s
      && !EndsWith(s, nl) && TrailingNewline(s) == []
  {
    var st := LineBuffer(rangeStart, []);
    FeedChunkShape(st, s);
    assert st.unfinished + s == s;
    SplitNoBreak(s);
    assert SplitLines(s)[..0] == [];
    assert EndsWith(s, []) && s + [] == s;
    NoBreakNotTerminated(s, nl);
    TrailingOfBare(s);
  }

  /** A uniform chunk with a separator: the lines before the last are yielded,
      and the last one is kept, followed by `nl` when the chunk ends with it. */
  lemma {:induction false} FeedSplit(s: bytes, nl: bytes, rangeStart: int)
    requires |s| > 0 && Uniform(s, nl) && DetectNewline(s) == nl
    ensures var r := FeedChunk(LineBuffer(rangeStart, []), s);
      && Flatten(r.1) + r.0.unfinished == s
      && |r.0.unfinished| > 0
      && TrailingNewline(r.0.unfinished) == (if EndsWith(s, nl) then nl else [])
  {
    var st := LineBuffer(rangeStart, []);
    var ls := SplitLines(s);
    var last := ls[|ls| - 1];
    var e := if EndsWith(s, nl) then nl else [];
    var t := Terminated(ls[..|ls| - 1], nl);
    assert st.unfinished + s == s;
    FeedChunkShape(st, s);
    var r := FeedChunk(st, s);
    assert Flatten(r.1) == t;
    assert r.0.unfinished == last + e by {
      assert !EndsWith(s, nl) ==> last + [] == last;
    }
    SplitUniform(s, nl);
    UnsplitTerminated(ls, nl, e);
    AppendAssoc(t, last, e);
    if EndsWith(s, nl) {
      TrailingOfTerminated(last, nl);
    } else {
      TrailingOfBare(last);
    }
  }

  /** `by_lines` on one chunk of uniform text: the yielded data and newlines
      concatenate back to the chunk, the last end offset is `rangeStart + |s|`,
      every line but the last ends with `nl`, and the last ends with `nl`
      exactly when the chunk does. */
  lemma {:induction false} ByLinesSingleChunk(s: bytes, nl: bytes, rangeStart: int)
    requires Uniform(s, nl)
    ensures var rs := ByLines([s], rangeStart);
      && Flatten(rs) == s
      && EndOf(rs, rangeStart) == rangeStart + |s|
      && (forall k :: 0 <= k < |rs| - 1 ==> rs[k].newline == nl)
      && (|rs| > 0 ==> rs[|rs| - 1].newline == (if EndsWith(s, nl) then nl else []))
  {
    var rs := ByLines([s], rangeStart);
    var (st', out) := FeedChunk(LineBuffer(rangeStart, []), s);
    var fin := FinishLines(st');
    OneChunk(s, rangeStart);
    FeedUniform(s, nl, rangeStart);
    FlattenAppend(out, fin);
    EndOfIsFlattenLength(rs, rangeStart);
    assert |fin| == 1 ==> rs[|rs| - 1] == fin[0];
  }

  /** `by_lines` over one chunk: what the chunk yields, then what finishing yields. */
  lemma {:induction false} OneChunk(s: bytes, rangeStart: int)
    ensures var (st', out) := FeedChunk(LineBuffer(rangeStart, []), s);
      ByLines([s], rangeStart) == out + FinishLines(st')
  {
    var (st', out) := FeedChunk(LineBuffer(rangeStart, []), s);
    assert [s][0] == s && [s][1..] == [];
    assert ByLinesFrom(st', []) == FinishLines(st');
  }
}

=== FILE: seqs.dfy ===
/** Sequence helpers shared by the byte-level framing and the string-level
    helpers: the Python `startswith`/`endswith`/`in`/`strip`/`split`/`join`
    operations, each characterised by its contract. */
module Seqs {
  import opened Wrappers

  predicate StartsWith<T(==)>(s: seq<T>, p: seq<T>) {
    |p| <= |s| && s[..|p|] == p
  }

  predicate EndsWith<T(==)>(s: seq<T>, p: seq<T>) {
    |p| <= |s| && s[|s| - |p|..] == p
  }

  /** Python's `p in s` for strings and bytes: `p` occurs contiguously in `s`. */
  predicate IsInfix<T(==)>(p: seq<T>, s: seq<T>) {
    exists i :: 0 <= i <= |s| && StartsWith(s[i..], p)
  }

  /** Number of leading elements of `s` that belong to `cs`. */
  function LeadingIn<T(==)>(s: seq<T>, cs: set<T>): (n: nat)
    ensures n <= |s|
    ensures forall i :: 0 <= i < n ==> s[i] in cs
    ensures n < |s| ==> s[n] !in cs
  {
    if |s| > 0 && s[0] in cs then 1 + LeadingIn(s[1..], cs) else 0
  }

  /** Number of trailing elements of `s` that belong to `cs`. */
  function TrailingIn<T(==)>(s: seq<T>, cs: set<T>): (n: nat)
    ensures n <= |s|
    ensures forall i :: |s| - n <= i < |s| ==> s[i] in cs
    ensures n < |s| ==> s[|s| - n - 1] !in cs
  {
    if |s| > 0 && s[|s| - 1] in cs then 1 + TrailingIn(s[..|s| - 1], cs) else 0
  }

  /** Python's `lstrip(chars)`: drops the longest prefix made of elements of `cs`. */
  function LStrip<T(==)>(s: seq<T>, cs: set<T>): seq<T> {
    s[LeadingIn(s, cs)..]
  }

  /** Python's `rstrip(chars)`: drops the longest suffix made of elements of `cs`. */
  function RStrip<T(==)>(s: seq<T>, cs: set<T>): seq<T> {
    s[..|s| - TrailingIn(s, cs)]
  }

  /** Python's `strip(chars)`: a character-set strip on both ends, not a prefix removal. */
  function Strip<T(==)>(s: seq<T>, cs: set<T>): seq<T> {
    RStrip(LStrip(s, cs), cs)
  }

  /** `strip` leaves nothing exactly when every element belongs to the set. */
  lemma {:induction false} StripEmpty<T>(s: seq<T>, cs: set<T>)
    ensures Strip(s, cs) == [] <==> forall i :: 0 <= i < |s| ==> s[i] in cs
  {
    var l := LeadingIn(s, cs);
    var t := LStrip(s, cs);
    assert |t| > 0 ==> t[0] == s[l] && TrailingIn(t, cs) < |t|;
  }

  /** What `strip` leaves neither starts nor ends with an element of the set. */
  lemma {:induction false} StripEnds<T>(s: seq<T>, cs: set<T>)
    ensures var t := Strip(s, cs);
      |t| > 0 ==> t[0] !in cs && t[|t| - 1] !in cs
  {
    var l := LeadingIn(s, cs);
    var u := LStrip(s, cs);
    var t := Strip(s, cs);
    if |t| > 0 {
      var n := TrailingIn(u, cs);
      assert t[|t| - 1] == u[|u| - n - 1];
      assert t[0] == u[0] == s[l];
    }
  }

  /** `strip` leaves alone a sequence whose ends are outside the set. */
  lemma {:induction false} StripNoop<T>(s: seq<T>, cs: set<T>)
    requires |s| > 0 ==> s[0] !in cs && s[|s| - 1] !in cs
    ensures Strip(s, cs) == s
  {
    assert LeadingIn(s, cs) == 0;
    assert LStrip(s, cs) == s;
    assert TrailingIn(s, cs) == 0;
  }

  /** `strip` removes exactly a prefix and a suffix made of set elements when
      what lies between them starts and ends outside the set. */
  lemma {:induction false} StripParts<T>(pre: seq<T>, mid: seq<T>, suf: seq<T>, cs: set<T>)
    requires forall i :: 0 <= i < |pre| ==> pre[i] in cs
    requires forall i :: 0 <= i < |suf| ==> suf[i] in cs
    requires |mid| > 0 && mid[0] !in cs && mid[|mid| - 1] !in cs
    ensures Strip(pre + mid + suf, cs) == mid
  {
    var s := pre + mid + suf;
    assert forall i :: 0 <= i < |pre| ==> s[i] == pre[i];
    assert s[|pre|] == mid[0];
    assert LeadingIn(s, cs) == |pre|;
    var t := LStrip(s, cs);
    assert t == mid + suf;
    assert forall i :: |mid| <= i < |t| ==> t[i] == suf[i - |mid|];
    assert t[|mid| - 1] == mid[|mid| - 1];
    assert TrailingIn(t, cs) == |suf|;
    assert t[..|t| - |suf|] == mid;
  }

  /** Index of the first occurrence of `x` in `s`, as Python's `find` but with `None` for -1. */
  function IndexOf<T(==)>(s: seq<T>, x: T): (r: Option<nat>)
    ensures r.Some? ==> r.value < |s| && s[r.value] == x && x !in s[..r.value]
    ensures r.None? ==> x !in s
  {
    if |s| == 0 then None
    else if s[0] == x then Some(0)
    else
      match IndexOf(s[1..], x)
      case None => None
      case Some(i) => assert s[..i + 1] == [s[0]] + s[1..][..i]; Some(i + 1)
  }

  /** Index of the last occurrence of `x` in `s`. */
  function LastIndexOf<T(==)>(s: seq<T>, x: T): (r: Option<nat>)
    ensures r.Some? ==> r.value < |s| && s[r.value] == x && x !in s[r.value + 1..]
    ensures r.None? ==> x !in s
  {
    if |s| == 0 then None
    else if s[|s| - 1] == x then Some(|s| - 1)
    else
      match LastIndexOf(s[..|s| - 1], x)
      case None => None
      case Some(i) => assert s[i + 1..] == s[..|s| - 1][i + 1..] + [s[|s| - 1]]; Some(i)
  }

  /** Python's `s.replace(a, b)` for one-element `a` and `b`. */
  function ReplaceAll<T(==)>(s: seq<T>, a: T, b: T): (r: seq<T>)
    ensures |r| == |s|
    ensures forall i :: 0 <= i < |s| ==> r[i] == (if s[i] == a then b else s[i])
  {
    if |s| == 0 then [] else [if s[0] == a then b else s[0]] + ReplaceAll(s[1..], a, b)
  }

  /** Python's `s.count(p)`: the number of non-overlapping occurrences, scanning left to right. */
  function Count<T(==)>(s: seq<T>, p: seq<T>): (n: nat)
    requires |p| > 0
    ensures n * |p| <= |s|
    decreases |s|
  {
    if |s| < |p| then 0
    else if s[..|p|] == p then 1 + Count(s[|p|..], p)
    else Count(s[1..], p)
  }

  /** Python's `sep.join(parts)`. */
  function Join<T>(sep: seq<T>, parts: seq<seq<T>>): seq<T> {
    if |parts| == 0 then []
    else if |parts| == 1 then parts[0]
    else parts[0] + sep + Join(sep, parts[1..])
  }

  /** The concatenation of all `parts`. */
  function Concat<T>(parts: seq<seq<T>>): seq<T> {
    if |parts| == 0 then [] else parts[0] + Concat(parts[1..])
  }

  lemma {:induction false} ConcatAppend<T>(a: seq<seq<T>>, b: seq<seq<T>>)
    ensures Concat(a + b) == Concat(a) + Concat(b)
  {
    if |a| == 0 {
      assert a + b == b;
    } else {
      assert (a + b)[1..] == a[1..] + b;
      ConcatAppend(a[1..], b);
    }
  }
}

=== FILE: values.dfy ===
/** The dynamically typed values the forwarder handles: a parsed YAML
    configuration, keyword arguments and events are all trees of these.
    Python's `in` and `[]` on such values are modelled with the exceptions
    they raise on the wrong kind of operand. */
module Values {
  import opened Wrappers
  import opened Seqs

  datatype Value =
    | Null
    | Bool(b: bool)
    | Int(i: int)
    | Float(f: real)
    | Str(s: string)
    | List(items: seq<Value>)
    | Dict(entries: map<string, Value>)

  /** The exceptions the modelled code raises. */
  datatype Error =
    | ValueError(msg: string)
    | TypeError
    | KeyError(key: string)
    | IndexError
    | AssertionError
    | Exception(msg: string)

  /** A Python number: `bool`, `int` or `float`. */
  predicate IsNumber(v: Value) {
    v.Bool? || v.Int? || v.Float?
  }

  /** The numeric value of a number. */
  function NumberOf(v: Value): (x: real)
    requires IsNumber(v)
    ensures v.Float? ==> x == v.f
    ensures IsInt(v) ==> x == AsInt(v) as real
  {
    if v.Float? then v.f else AsInt(v) as real
  }

  /** Python's `==` on the values an id can be: numbers compare by value, so
      `True == 1 == 1.0`, and every other pair compares structurally. */
  predicate PyEq(a: Value, b: Value) {
    if IsNumber(a) && IsNumber(b) then NumberOf(a) == NumberOf(b) else a == b
  }

  /** `isinstance(v, str)`. */
  predicate IsStr(v: Value) {
    v.Str?
  }

  /** `isinstance(v, int)`: Python's `bool` is a subclass of `int`. */
  predicate IsInt(v: Value) {
    v.Int? || v.Bool?
  }

  /** The integer a value accepted by `IsInt` stands for. */
  function AsInt(v: Value): (n: int)
    requires IsInt(v)
    ensures v.Int? ==> n == v.i
    ensures v.Bool? ==> n == (if v.b then 1 else 0)
  {
    if v.Int? then v.i else if v.b then 1 else 0
  }

  /** Python's `key in v` for a string `key`: a dictionary key, a list element
      or a substring; any other operand is not iterable and raises. */
  function In(key: string, v: Value): (r: Result<bool, Error>)
    ensures v.Dict? ==> r == Ok(key in v.entries)
    ensures v.List? ==> r == Ok(Str(key) in v.items)
    ensures v.Str? ==> r == Ok(IsInfix(key, v.s))
    ensures r.Err? <==> !(v.Dict? || v.List? || v.Str?)
  {
    match v
    case Dict(m) => Ok(key in m)
    case List(items) => Ok(Str(key) in items)
    case Str(s) => Ok(IsInfix(key, s))
    case _ => Err(TypeError)
  }

  /** Python's `v[key]` for a string `key`: only a dictionary accepts it. */
  function GetItem(v: Value, key: string): (r: Result<Value, Error>)
    ensures r.Ok? <==> v.Dict? && key in v.entries
    ensures r.Ok? ==> r.value == v.entries[key]
    ensures v.Dict? && key !in v.entries ==> r == Err(KeyError(key))
    ensures !v.Dict? ==> r == Err(TypeError)
  {
    match v
    case Dict(m) => if key in m then Ok(m[key]) else Err(KeyError(key))
    case _ => Err(TypeError)
  }

  /** `v[k0][k1]...`: a chain of string subscripts, failing at the first
      level that is not a dictionary holding the next key. */
  function GetPath(v: Value, path: seq<string>): (r: Result<Value, Error>)
    ensures |path| == 0 ==> r == Ok(v)
    ensures |path| > 0 && !(v.Dict? && path[0] in v.entries) ==> r.Err?
    ensures |path| > 0 && v.Dict? && path[0] in v.entries ==> r == GetPath(v.entries[path[0]], path[1..])
    decreases |path|
  {
    if |path| == 0 then Ok(v)
    else
      var child :- GetItem(v, path[0]);
      GetPath(child, path[1..])
  }

  /** `v[0]`: the first element of a list or the first character of a
      string; a dictionary has no key `0` (keys here are strings). */
  function First(v: Value): (r: Result<Value, Error>)
    ensures v.List? && |v.items| > 0 ==> r == Ok(v.items[0])
    ensures (v.List? && |v.items| == 0) || (v.Str? && |v.s| == 0) ==> r == Err(IndexError)
    ensures r.Ok? ==> (v.List? && |v.items| > 0) || (v.Str? && |v.s| > 0)
  {
    match v
    case List(items) => if |items| > 0 then Ok(items[0]) else Err(IndexError)
    case Str(s) => if |s| > 0 then Ok(Str([s[0]])) else Err(IndexError)
    case Dict(_) => Err(KeyError("0"))
    case _ => Err(TypeError)
  }

  /** `len(v)`. */
  function Len(v: Value): (r: Result<nat, Error>)
    ensures v.List? ==> r == Ok(|v.items|)
    ensures v.Str? ==> r == Ok(|v.s|)
    ensures v.Dict? ==> r == Ok(|v.entries|)
    ensures r.Err? <==> !(v.List? || v.Str? || v.Dict?)
  {
    match v
    case List(items) => Ok(|items|)
    case Str(s) => Ok(|s|)
    case Dict(m) => Ok(|m|)
    case _ => Err(TypeError)
  }

  /** The Python idiom `key not in v or not isinstance(v[key], str)` used as a
      guard: `Ok(true)` when `v[key]` is a string, `Ok(false)` when the guard
      fires, and the exception `in` or `[]` raise otherwise. */
  function HasStrAt(v: Value, key: string): (r: Result<bool, Error>)
    ensures v.Dict? ==> r == Ok(key in v.entries && v.entries[key].Str?)
    ensures r.Ok? && r.value ==> v.Dict? && key in v.entries && v.entries[key].Str?
  {
    var present :- In(key, v);
    if !present then Ok(false)
    else
      var item :- GetItem(v, key);
      Ok(item.Str?)
  }

  /** Same guard for `isinstance(v[key], list)`. */
  function HasListAt(v: Value, key: string): (r: Result<bool, Error>)
    ensures v.Dict? ==> r == Ok(key in v.entries && v.entries[key].List?)
    ensures r.Ok? && r.value ==> v.Dict? && key in v.entries && v.entries[key].List?
  {
    var present :- In(key, v);
    if !present then Ok(false)
    else
      var item :- GetItem(v, key);
      Ok(item.List?)
  }

  /** Same guard for `isinstance(v[key], dict)`. */
  function HasDictAt(v: Value, key: string): (r: Result<bool, Error>)
    ensures v.Dict? ==> r == Ok(key in v.entries && v.entries[key].Dict?)
    ensures r.Ok? && r.value ==> v.Dict? && key in v.entries && v.entries[key].Dict?
  {
    var present :- In(key, v);
    if !present then Ok(false)
    else
      var item :- GetItem(v, key);
      Ok(item.Dict?)
  }

  /** A list of strings as a value. */
  function StrList(ss: seq<string>): (v: Value)
    ensures v.List? && |v.items| == |ss|
    ensures forall i :: 0 <= i < |ss| ==> v.items[i] == Str(ss[i])
  {
    List(seq(|ss|, i requires 0 <= i < |ss| => Str(ss[i])))
  }

  /** `[x for x in items if isinstance(x, str)]`, as the strings. */
  function StrsOf(items: seq<Value>): (ss: seq<string>)
    ensures |ss| <= |items|
    ensures |ss| == |items| <==> forall i :: 0 <= i < |items| ==> items[i].Str?
    ensures |ss| == |items| ==> forall i :: 0 <= i < |items| ==> items[i] == Str(ss[i])
  {
    if |items| == 0 then []
    else if items[0].Str? then [items[0].s] + StrsOf(items[1..])
    else
      var rest := StrsOf(items[1..]);
      assert !(forall i :: 0 <= i < |items| ==> items[i].Str?) by {
        assert !items[0].Str?;
      }
      rest
  }
}

=== FILE: wrappers.dfy ===
/** Failure-compatible wrappers used across the model: `Option` for Python's
    `None`-or-value results and `Result` for operations that may raise. */
module Wrappers {

  datatype Option<+T> = None | Some(value: T) {
    predicate IsFailure() {
      None?
    }

    function PropagateFailure<U>(): Option<U>
      requires None?
    {
      None
    }

    function Extract(): T
      requires Some?
    {
      value
    }
  }

  /** `Ok` carries the value an operation returned, `Err` the exception it raised. */
  datatype Result<+T, +E> = Ok(value: T) | Err(error: E) {
    predicate IsFailure() {
      Err?
    }

    function PropagateFailure<U>(): Result<U, E>
      requires Err?
    {
      Err(error)
    }

    function Extract(): T
      requires Ok?
    {
      value
    }
  }
}
